=== FILE: README.md ===
# Single-instance sandbox of the desktop client, in Dafny

This project models the application shell in `Telegram/SourceFiles/core/sandbox.cpp`. That is the part of the desktop client that decides whether a starting process becomes the *primary* instance or a *secondary* one. A secondary hands its intent (files to send, a URL to open, or just "show") to the primary over a local socket, then quits. The model has five modules:

- `Basics`: 16-bit code units (`Unit`, an `int` in 0..0xFFFF, since Dafny's `char` excludes surrogates), `Option`, and small sequence helpers.
- `WireCodec`: the 7-bit transport codec `_toHex`, `_fromHex`, `_escapeTo7bit` and `_escapeFrom7bit`. Each conversion is a recursive function plus the source's loop as a method proved equal to it.
- `CommandRelay`: both halves of the command relay.
  - The secondary side: building the command string (`socketConnected`), reading the `RES:<pid>;` reply (`socketReading`), and quitting on disconnect.
  - The primary side: splitting every client's buffer into `;`-terminated frames, classifying each by its `CMD:`/`SEND:`/`OPEN:` tag, writing replies and collecting send paths and the start URL (`readClients`), accepting clients (`newInstanceConnected`) and dropping disconnected ones (`removeClients`).
- `NestingTracker`: the event/loop nesting levels and the stack of postponed calls (`postponeCall`, `incrementEventNestingLevel`, `decrementEventNestingLevel`, `registerEnterFromEventLoop`, `processPostponedCalls`). Callables are opaque ids; running one appends its id to a trace.
- `Lifecycle`: four decisions.
  - Role arbitration after a failed connect (`socketError`).
  - The startup decision on the crash-report outcome (`singleInstanceChecked`).
  - Idempotent shutdown (`closeApplication`).
  - Delayed window activation with pause and resume.

Everything the shell asks of Qt or of the operating system becomes a parameter. This covers socket reads and states, `listen`, `StartUrlRequiresActivate`, `CrashReports::Start`/`Restart`, the logging flags, the updater flags, widget visibility and the process id. Calls the shell makes into the rest of the application become emitted values:

- `Effect` on the primary: a write to a client, `execExternal`, a call to the window's `sendPaths`, a call to `checkStartUrl`.
- `ClientAction` on the secondary: write the commands, activate a process, quit.

`readClients` reads `cSendPaths()` and `cStartUrl()` during its loop and writes them only after the loop. The model therefore reads them once, as they were when the call started, and commits the collected values at the end.

Two properties of the code shape what the model can promise:

- **`;` is not escaped.** `_escapeTo7bit` encodes units below 32, units above 127 and `%` (DEL, 127, passes through), but leaves `;` as it is (`WireCodec.EscapeKeepsSemicolons`). The primary splits its buffer on `;` (sandbox.cpp:357), so a path holding `;` reaches it cut in two (`CommandRelay.SemicolonInPathIsCut`). Every end-to-end property therefore requires `;`-free payloads.
- **`CMD:` arguments are not decoded.** `SEND:` and `OPEN:` payloads go through `_escapeFrom7bit` (sandbox.cpp:365, 370), but a `CMD:` argument reaches `execExternal` exactly as it arrived (sandbox.cpp:360; `CommandRelay.Classify` keeps the argument encoded).

## Model

| member | source | states |
|---|---|---|
| WireCodec.ToHex | Telegram/SourceFiles/core/sandbox.cpp:35-38 | the result is a lower-case hex digit whose value is the low nibble of the argument |
| WireCodec.FromHex | Telegram/SourceFiles/core/sandbox.cpp:39-41 | the result is below 16 whatever the unit; on a lower-case hex digit it is that digit's value |
| WireCodec.EscapeUnit | Telegram/SourceFiles/core/sandbox.cpp:47-53 | a unit below 32, a unit above 127 or '%' becomes '%' and four lower-case hex digits that read back, high nibble first, as the unit; any other unit, DEL (127) included, is kept as is |
| WireCodec.Escape | Telegram/SourceFiles/core/sandbox.cpp:43-56 | every unit of an encoding lies in 32..127, and the encoding is between one and five times as long as the text |
| WireCodec.EscapeTo7bit | Telegram/SourceFiles/core/sandbox.cpp:43-56 | the source's loop computes the unit-by-unit encoding |
| WireCodec.EscapeAppend | Telegram/SourceFiles/core/sandbox.cpp:45-54 | encoding works unit by unit: the encoding of a concatenation is the concatenation of the encodings |
| WireCodec.EscapedPercentStartsGroup | Telegram/SourceFiles/core/sandbox.cpp:49-50 | a '%' at any position of an encoding is followed by four lower-case hex digits |
| WireCodec.EscapedPercentsStartGroups | Telegram/SourceFiles/core/sandbox.cpp:49-50 | the same for all positions at once: an encoding holds no bare '%' |
| WireCodec.EscapeKeepsSemicolons | Telegram/SourceFiles/core/sandbox.cpp:49-53 | an encoding holds ';' exactly when the text does, so ';' is never escaped |
| WireCodec.Unescape | Telegram/SourceFiles/core/sandbox.cpp:58-71 | decoding never lengthens the text |
| WireCodec.EscapeFrom7bit | Telegram/SourceFiles/core/sandbox.cpp:58-71 | the source's loop, which skips four more units after a group, computes the recursive decoding |
| WireCodec.UnescapeEscapeUnit | Telegram/SourceFiles/core/sandbox.cpp:62-67 | decoding the encoding of one unit followed by anything yields that unit and leaves exactly the rest |
| WireCodec.UnescapeEscapedPrefix | Telegram/SourceFiles/core/sandbox.cpp:43-71 | decoding an encoded prefix followed by anything yields the prefix, then the decoding of the rest |
| WireCodec.RoundTrip | Telegram/SourceFiles/core/sandbox.cpp:43-71 | decoding the encoding of any text of 16-bit units gives that text back |
| WireCodec.EscapeInjective | Telegram/SourceFiles/core/sandbox.cpp:43-71 | two texts with the same encoding are equal |
| WireCodec.ShortIsLiteral | Telegram/SourceFiles/core/sandbox.cpp:63-67 | a text of at most four units decodes to itself, since no '%' in it has four units after it |
| WireCodec.TrailingPercentIsLiteral | Telegram/SourceFiles/core/sandbox.cpp:63-67 | after a well-formed encoding, a '%' with fewer than four units after it is copied literally together with those units |
| WireCodec.PercentOneIsLiteral | Telegram/SourceFiles/core/sandbox.cpp:63-67 | the malformed trailing "%1" decodes to "%1" |
| CommandRelay.Decimal | Telegram/SourceFiles/core/sandbox.cpp:361 | a process id is written as a non-empty string of decimal digits |
| CommandRelay.DecimalValue | Telegram/SourceFiles/core/sandbox.cpp:361 | the digits written for a process id denote that id |
| CommandRelay.IndexOf | Telegram/SourceFiles/core/sandbox.cpp:357 | the position found holds the searched unit, and no earlier position does |
| CommandRelay.SplitFrames | Telegram/SourceFiles/core/sandbox.cpp:355-384 | the frames, each closed by ';', followed by the tail give back the buffer; no frame and not the tail holds ';' |
| CommandRelay.SplitJoin | Telegram/SourceFiles/core/sandbox.cpp:355-384 | the framing is unique: splitting ';'-free frames joined with ';' plus a ';'-free tail gives back exactly those frames and that tail |
| CommandRelay.SplitChunked | Telegram/SourceFiles/core/sandbox.cpp:352-388 | frames come out in stream order whatever the read boundaries: splitting two reads, with the first tail carried over, equals splitting both at once |
| CommandRelay.Classify | Telegram/SourceFiles/core/sandbox.cpp:358-383 | the command rendered back with its tag is the frame, payload undecoded; a frame is unknown exactly when it carries none of the three tags |
| CommandRelay.ClassifyRender | Telegram/SourceFiles/core/sandbox.cpp:358-383 | classifying the text of a command gives that command back |
| CommandRelay.HandleExec | Telegram/SourceFiles/core/sandbox.cpp:359-362 | `CMD:` runs exactly one command, its raw argument, and adds exactly one reply, with the own pid, written to the client whose frame it is; the collected paths and URL are unchanged |
| CommandRelay.ExecEffects | Telegram/SourceFiles/core/sandbox.cpp:360-362 | a `CMD:` emits exactly one `execExternal`, of its argument, and exactly one reply with the given pid, written to the given client |
| CommandRelay.OpenEffects | Telegram/SourceFiles/core/sandbox.cpp:373-380 | an `OPEN:` emits exactly one reply with the given pid, written to the given client; its only `execExternal` is one "show", exactly when it activates |
| CommandRelay.HandleOpen | Telegram/SourceFiles/core/sandbox.cpp:367-380 | `OPEN:` captures its decoded URL, cut to 8192 units, only when no start URL was pending. It writes the own pid exactly when it activates, and 0 otherwise, to the client whose frame it is. It runs one "show" exactly when it activates, and no other command |
| CommandRelay.HandleCommand | Telegram/SourceFiles/core/sandbox.cpp:358-383 | per frame: `CMD:` runs exactly its raw argument and writes one reply with the own pid. `OPEN:` runs one "show" exactly when it activates, and writes one reply, with the own pid or 0. Every reply goes to the client whose frame it is. `SEND:` and unknown frames write and run nothing and leave the effects unchanged. `SEND:` queues its decoded path only when no send paths were pending. Earlier effects are kept as a prefix |
| CommandRelay.HandleFrames | Telegram/SourceFiles/core/sandbox.cpp:357-385 | the frame loop keeps the batch invariant; earlier effects and queued paths stay as a prefix, each frame writes at most one reply, and every reply goes to the client being parsed |
| CommandRelay.HandleFramesAppend | Telegram/SourceFiles/core/sandbox.cpp:355-384 | frames are handled one after the other in stream order: handling two runs of frames is handling the first, then the second |
| CommandRelay.ReadClient | Telegram/SourceFiles/core/sandbox.cpp:352-388 | after reading, a client's buffer is the ';'-free suffix after the last ';' of old buffer plus new bytes. It is unchanged, with nothing handled, if no ';' arrived. Every reply written meanwhile goes to that client |
| CommandRelay.ReadClientFrames | Telegram/SourceFiles/core/sandbox.cpp:352-388 | for any framing of the buffer into ';'-free frames and a ';'-free tail, a client read handles exactly those frames in order and keeps that tail |
| CommandRelay.ReadAll | Telegram/SourceFiles/core/sandbox.cpp:351-389 | the pass over all clients leaves each client, in place, with no pending bytes and only the part of its old buffer plus new bytes after the last ';'; identities and connection states are kept. Collected effects and send paths only grow at the end |
| CommandRelay.ReadAllAppend | Telegram/SourceFiles/core/sandbox.cpp:352-390 | every client's frames go into the one shared batch, in client order: the batch after clients `a + c` is the batch after `c` started from the batch after `a` |
| CommandRelay.ReadClients | Telegram/SourceFiles/core/sandbox.cpp:348-407 | after `readClients`, every client keeps only its unframed tail. The old send paths are a prefix of the new ones, and new paths are added only if none were pending. A pending start URL is never replaced, and a new one has at most 8192 units. The window is told to send exactly when paths exist and a window does. The application is asked to check the URL exactly when it exists |
| CommandRelay.AcceptClients | Telegram/SourceFiles/core/sandbox.cpp:333-346 | accepted connections are appended after the existing clients, in order, connected and with empty buffers |
| CommandRelay.RemoveClients | Telegram/SourceFiles/core/sandbox.cpp:409-421 | the survivors are exactly the connected clients, and all of them are connected |
| CommandRelay.RemoveClientsAppend | Telegram/SourceFiles/core/sandbox.cpp:409-421 | removal works piecewise over a concatenation, so survivors keep their relative order |
| CommandRelay.RemoveClientsIdempotent | Telegram/SourceFiles/core/sandbox.cpp:409-421 | removing twice is removing once |
| CommandRelay.Commands | Telegram/SourceFiles/core/sandbox.cpp:203-220 | the command string holds only units below 128, so the conversion to Latin-1 before writing loses nothing |
| CommandRelay.SendCommands | Telegram/SourceFiles/core/sandbox.cpp:207-211 | the `SEND:` part of the command string holds only units below 128 |
| CommandRelay.SendCommandsAreFrames | Telegram/SourceFiles/core/sandbox.cpp:207-211 | the `SEND:` part is one ';'-closed `SEND:` frame per path, in order |
| CommandRelay.CommandsAreFrames | Telegram/SourceFiles/core/sandbox.cpp:203-220 | the command string is the `SEND:` frames followed by one `OPEN:` frame, or by `CMD:show` when there is no start URL, each closed by ';' |
| CommandRelay.CommandsSplitIntoFrames | Telegram/SourceFiles/core/sandbox.cpp:207-217 | for ';'-free paths and URL, the primary splits the command string back into exactly the secondary's frames, with nothing left over |
| CommandRelay.SocketConnected | Telegram/SourceFiles/core/sandbox.cpp:203-220 | on connecting, the process becomes the secondary and writes the 7-bit command string, which is exactly its `SEND:` frames, one per path, then `OPEN:` with the URL or `CMD:show`, each closed by ';' |
| CommandRelay.SocketReading | Telegram/SourceFiles/core/sandbox.cpp:233-247 | nothing happens unless connected. Otherwise the bytes accumulate, and the secondary acts exactly when the buffer matches `RES:(\d+);`. It then activates exactly the pid read from the buffer when that is not 0, nothing else, and always ends with quitting |
| CommandRelay.ExtractPid | Telegram/SourceFiles/core/sandbox.cpp:240 | the pid read from the buffer fits in 64 bits; from a buffer that is exactly one reply it is that reply's pid; a pid other than 0 is the value of the digits between `RES:` and the last unit |
| CommandRelay.SocketDisconnected | Telegram/SourceFiles/core/sandbox.cpp:326-331 | a disconnect makes the process quit, and do nothing else, exactly when it is the secondary |
| CommandRelay.ResponseRoundTrip | Telegram/SourceFiles/core/sandbox.cpp:239-240 | a single reply matches the reply pattern, and the pid read from it is the pid written (below 2^64) |
| CommandRelay.NoSemicolonNoResponse | Telegram/SourceFiles/core/sandbox.cpp:239 | bytes without ';' never match the reply pattern, so a partly received reply triggers nothing |
| CommandRelay.SecondaryHandlesReply | Telegram/SourceFiles/core/sandbox.cpp:233-247 | a secondary whose bytes so far complete the primary's reply, whether it came in one read or several, activates the reported pid unless it is 0, then quits |
| CommandRelay.TwoRepliesReadAsEmptyPid | Telegram/SourceFiles/core/sandbox.cpp:240 | the pid extraction assumes the buffer is exactly one reply: two replies in one buffer read as pid 0 |
| CommandRelay.HandleSendFrame | Telegram/SourceFiles/core/sandbox.cpp:364-366 | a secondary's `SEND:` frame queues its path, decoded, exactly when no send paths were pending; it writes nothing |
| CommandRelay.HandleSendFrames | Telegram/SourceFiles/core/sandbox.cpp:364-366 | all of a secondary's `SEND:` frames queue its paths, decoded and in order, exactly when no send paths were pending |
| CommandRelay.HandleClosingFrame | Telegram/SourceFiles/core/sandbox.cpp:359-380 | the closing frame of a secondary writes exactly one reply: the own pid for `CMD:show`, the own pid or 0 for `OPEN:`. It captures the cut URL only when none was pending |
| CommandRelay.HandleClientFrames | Telegram/SourceFiles/core/sandbox.cpp:355-384 | a secondary's frames queue its paths only when none were pending. When no URL was pending, the collected URL is its URL cut to 8192 units, empty if it sent none. The frames get exactly one reply |
| CommandRelay.PrimaryReadsSecondary | Telegram/SourceFiles/core/sandbox.cpp:355-384 | end to end for ';'-free paths and URL: the primary splits the secondary's command string into its frames. It queues the paths, captures the URL and writes exactly one reply |
| CommandRelay.ReadClientsFromSecondary | Telegram/SourceFiles/core/sandbox.cpp:348-407 | end to end through `readClients`: a client holding a secondary's whole command string (';'-free paths and URL) publishes exactly its paths when none were pending, and its URL cut to 8192 units when none was pending; pending ones are kept. It is left with an empty buffer and is written exactly one reply |
| CommandRelay.ReadClientsWholeFrames | Telegram/SourceFiles/core/sandbox.cpp:352-407 | a client whose buffer is whole frames is left empty, and the collected paths and URL are published on top of the pending ones |
| CommandRelay.ReadClientsSingle | Telegram/SourceFiles/core/sandbox.cpp:391-407 | `readClients` over one client appends the paths its frames collected to the pending ones, publishes the URL they collected if any and keeps the pending one otherwise, and adds no reply of its own |
| CommandRelay.ReadClientsCommit | Telegram/SourceFiles/core/sandbox.cpp:391-407 | for any clients, the commit appends the collected paths to the pending ones (a no-op when none were collected), a collected URL replaces the pending one, and the notifications write nothing to any client |
| CommandRelay.ReadClientsEffects | Telegram/SourceFiles/core/sandbox.cpp:391-406 | the effects of `readClients` are those of the parse loop, in order, followed only by the window and application notifications, which run no command |
| CommandRelay.ExecsAppend | Telegram/SourceFiles/core/sandbox.cpp:359-375 | the commands run by a run of effects are counted piecewise: those of a concatenation are the first part's, then the second's |
| CommandRelay.SemicolonPathCommands | Telegram/SourceFiles/core/sandbox.cpp:207-211 | sending the path "a;b" writes the frames `SEND:a`, `b` and `CMD:show` |
| CommandRelay.SemicolonPathFrames | Telegram/SourceFiles/core/sandbox.cpp:358-366 | handling those frames queues only "a"; "b" is an unknown command |
| CommandRelay.SemicolonInPathIsCut | Telegram/SourceFiles/core/sandbox.cpp:355-366 | a path holding ';' reaches the primary cut at the ';': sending "a;b" queues "a" |
| NestingTracker.InitialValid | Telegram/SourceFiles/core/sandbox.cpp:453-495 | the state before any event (both levels 0, both stacks empty) satisfies the nesting invariant |
| NestingTracker.Increment | Telegram/SourceFiles/core/sandbox.cpp:476-478 | entering an event raises the event level by one and keeps the invariant (loop level at most event level) |
| NestingTracker.PopLoop | Telegram/SourceFiles/core/sandbox.cpp:481-484 | leaving a loop restores the last saved loop level, which is lower, and pops it |
| NestingTracker.Decrement | Telegram/SourceFiles/core/sandbox.cpp:480-488 | leaving a balanced event keeps the invariant and lowers the event level by exactly one. When the event level equals the loop level, the loop level returns to the last saved one and that entry leaves the history; otherwise both are kept. It runs what processing the level below runs |
| NestingTracker.RegisterEnter | Telegram/SourceFiles/core/sandbox.cpp:490-495 | entering a native loop keeps the invariant. It pushes the old loop level and raises the loop level to the event level exactly when the event level is higher; otherwise nothing changes |
| NestingTracker.Postpone | Telegram/SourceFiles/core/sandbox.cpp:453-474 | postponing keeps the invariant and appends exactly one call. It is tagged with the loop level, corrected first when the loop was already left, and always below the event level |
| NestingTracker.Process | Telegram/SourceFiles/core/sandbox.cpp:518-528 | processing removes the maximal trailing run of calls tagged with the level, runs them most recent first and keeps all earlier calls unchanged |
| NestingTracker.ProcessConserves | Telegram/SourceFiles/core/sandbox.cpp:518-528 | no postponed call is lost or run twice: the calls kept, then the calls run read in postponing order, are the calls before |
| NestingTracker.ProcessDrains | Telegram/SourceFiles/core/sandbox.cpp:518-528 | processing the same level again right away runs nothing |
| NestingTracker.ProcessTwo | Telegram/SourceFiles/core/sandbox.cpp:518-528 | two calls of one level on top of other levels run last first and leave the rest |
| NestingTracker.PostponeTwice | Telegram/SourceFiles/core/sandbox.cpp:470-473 | inside an event below its loop, postponing only pushes, tagged with the loop level |
| NestingTracker.PostponedRunLastFirst | Telegram/SourceFiles/core/sandbox.cpp:470-488 | two calls postponed in one event run in reverse order when the event ends, and earlier calls stay |
| NestingTracker.ImplicitLoopScenario | Telegram/SourceFiles/core/sandbox.cpp:476-495 | a native loop entered in an event, with a call postponed in an inner event: the inner event's end runs the call, the outer event's end leaves the loop and returns to the initial state |
| NestingTracker.CorrectedLoopScenario | Telegram/SourceFiles/core/sandbox.cpp:461-487 | a call postponed after a native loop was silently left is tagged with the corrected level and runs when its event ends |
| Lifecycle.SocketError | Telegram/SourceFiles/core/sandbox.cpp:249-283 | a failed connect makes the process the primary exactly when it is not quitting, not the secondary, listening works and no ready update is to be installed. A secondary that is not quitting quits. It quits on a failed listen, installs the update exactly when listening works and an enabled updater has one ready, and does nothing while quitting |
| Lifecycle.ErrorKindIrrelevant | Telegram/SourceFiles/core/sandbox.cpp:258-262 | the kind of connect error only changes the log line, never the decision |
| Lifecycle.SingleInstanceChecked | Telegram/SourceFiles/core/sandbox.cpp:285-324 | the application launches exactly when logging is ready and the crash reporter opened, or reopened after an empty dump. The crash window is shown exactly for a non-empty dump, and carries that dump |
| Lifecycle.StartupFallback | Telegram/SourceFiles/core/sandbox.cpp:290-307 | the not-started window is shown exactly when logging is not ready or the crash reporter cannot be opened |
| Lifecycle.CloseApplication | Telegram/SourceFiles/core/sandbox.cpp:570-587 | the first shutdown releases the application, server, clients, socket and update checker, closing each client in order; once the quit is processed it changes nothing |
| Lifecycle.CloseIdempotent | Telegram/SourceFiles/core/sandbox.cpp:570-587 | shutting down twice ends in the state of shutting down once, and the second call closes nothing |
| Lifecycle.ActivateWindowDelayed | Telegram/SourceFiles/core/sandbox.cpp:538-551 | a request is ignored while paused. Otherwise the widget replaces any pending one, and a callback is posted only if none was pending |
| Lifecycle.RunActivation | Telegram/SourceFiles/core/sandbox.cpp:544-550 | the callback takes the pending widget and activates it exactly when it is not hidden |
| Lifecycle.Pause | Telegram/SourceFiles/core/sandbox.cpp:553-556 | pausing drops the pending widget |
| Lifecycle.Resume | Telegram/SourceFiles/core/sandbox.cpp:558-560 | resuming keeps the pending widget and the posted callbacks |
| Lifecycle.LatestWidgetWins | Telegram/SourceFiles/core/sandbox.cpp:538-551 | two requests before the callback runs post one callback, and it activates the later widget |
| Lifecycle.PausedRequestIsDropped | Telegram/SourceFiles/core/sandbox.cpp:538-560 | a request made while paused activates nothing, even after resuming |

## Left out

- `Telegram/SourceFiles/rpl/producer.h` (the reactive-stream templates) is not part of this model. It has no data logic of its own.
- `start()`: endpoint naming from `hashMd5Hex` and Qt signal wiring are left out as foreign calls and I/O. The many-instance branch is left out too, since it only chains into `singleInstanceChecked`.
- `launchApplication`, `NotStartedWindow`, `LastCrashedWindow`, `psActivateProcess` and the window activation in `execExternal` are UI and OS side effects. They are recorded only as emitted values.
- `setupScreenScale` is left out: floating-point DPI handling.
- `refreshGlobalProxy` is left out: a wrapper over Qt's proxy API.
- `notify` is left out: on the main thread it wraps the dispatch of one event in a nesting level (an `Increment`, then a `Decrement`) and, for an `UpdateRequest` event only, fires the widget-update stream; on any other thread it only dispatches. Event dispatch is Qt's.
- `nativeEventFilter` is left out as a member: it only calls `registerEnterFromEventLoop`, modelled as `NestingTracker.RegisterEnter`, and returns false.
- `socketWritten`, `checkForQuit` and `event` are left out: logging and a quit on the close event.
- The WinRT build, which skips `listen`, is left out; the model is the build that listens.
- The tracker's initial state is declared in `core/sandbox.h`, which is not part of this model. The model assumes both levels 0 and both stacks empty.
- Re-entrant postponement from inside a running call is left out: calls are opaque ids, so running one cannot postpone another.
- Decrement: requires a balanced decrement (event level above 0). Called unbalanced, the source pops an empty vector, which is undefined behaviour rather than a defined result.
- Postpone: the source's `Expects`/`Assert` checks (callable present, loop level at most event level, no call tagged with a loop that was left, a saved level to return to) are preconditions, not modelled failures.
- CommandRelay.ToULongLong: only digit strings are read. The leading whitespace and '+' that `QByteArray::toULongLong` also accepts are not modelled; values of 2^64 and above read as 0, as in Qt.
- CommandRelay.ExtractPid: models `mid(4, length - 5)` on the whole accumulated buffer, so it is right only for a buffer that is exactly one reply. `TwoRepliesReadAsEmptyPid` shows the consequence.
- WireCodec.Unescape: its own contract states only that decoding does not lengthen the text; its meaning is stated by `RoundTrip`, `ShortIsLiteral` and `TrailingPercentIsLiteral`.
- CommandRelay.PrimaryReadsSecondary: requires ';'-free paths and URL, because ';' is not escaped. `SemicolonInPathIsCut` shows what happens otherwise.
- Socket bytes are Latin-1, so they are held as units 0..255 of the same `Unit` type. The Latin-1 conversions of the source are identities on units below 256.

=== FILE: basics.dfy ===
/**
  Shared vocabulary of the model: 16-bit text code units, an Option type and
  a few sequence helpers.
 */
module Basics {

  /** One UTF-16 code unit (a `QChar`); socket bytes are held as units 0..255. */
  type Unit = x: int | 0 <= x < 0x1_0000

  /** A `QString` (or a Latin-1 `QByteArray` read as one). */
  type Units = seq<Unit>

  datatype Option<+T> = None | Some(value: T)

  function Last<T>(s: seq<T>): T
    requires |s| > 0
  {
    s[|s| - 1]
  }

  function DropLast<T>(s: seq<T>): seq<T>
    requires |s| > 0
  {
    s[..|s| - 1]
  }

  /** `QString::mid(0, n)`: the first `n` units, or all of them if fewer. */
  function Take<T>(s: seq<T>, n: nat): seq<T>
  {
    if |s| <= n then s else s[..n]
  }
}

=== FILE: codec.dfy ===
/**
  The 7-bit wire codec of the local single-instance channel: every code unit
  below 32 or above 127, and '%' itself, becomes '%' followed by four
  lower-case hex digits, high nibble first. DEL (127) passes through as is.
 */
module WireCodec {
  import opened Basics

  const Percent: Unit := 37   // '%'
  const Semicolon: Unit := 59 // ';'

  /** Units that `_escapeTo7bit` replaces by a %-group. */
  predicate NeedsEscape(u: Unit)
  {
    u < 32 || u > 127 || u == Percent
  }

  /** '0'..'9' and 'a'..'f'. */
  predicate IsLowerHexDigit(c: Unit)
  {
    48 <= c <= 57 || 97 <= c <= 102
  }

  /** Value of a lower-case hex digit (reference reading, independent of `FromHex`). */
  function HexDigitValue(c: Unit): nat
    requires IsLowerHexDigit(c)
  {
    if c <= 57 then c - 48 else c - 87
  }

  /** `_toHex`: the lower-case digit of the low nibble of `v`. */
  function ToHex(v: nat): (c: Unit)
    ensures IsLowerHexDigit(c) && HexDigitValue(c) == v % 16
  {
    var n := v % 16;
    if n >= 10 then 97 + (n - 10) else 48 + n
  }

  /** `_fromHex`: the C++ mask `& 0x000F` applied to a possibly negative
      difference is, in two's complement, Euclidean remainder by 16. */
  function FromHex(c: Unit): (v: nat)
    ensures v < 16
    ensures IsLowerHexDigit(c) ==> v == HexDigitValue(c)
  {
    (if c >= 97 then c - 97 + 10 else c - 48) % 16
  }

  /** The unit rebuilt from the four digits of a %-group, high nibble first. */
  function GroupValue(a: Unit, b: Unit, c: Unit, d: Unit): Unit
  {
    FromHex(a) * 4096 + FromHex(b) * 256 + FromHex(c) * 16 + FromHex(d)
  }

  lemma Nibbles(u: Unit)
    ensures (u / 4096) % 16 * 4096 + (u / 256) % 16 * 256 + (u / 16) % 16 * 16 + u % 16 == u
  {
    assert u == (u / 16) * 16 + u % 16;
    assert u / 16 == (u / 256) * 16 + (u / 16) % 16;
    assert u / 256 == (u / 4096) * 16 + (u / 256) % 16;
    assert (u / 4096) % 16 == u / 4096;
  }

  /** The encoding of one unit: itself, or a %-group of four lower-case hex
      digits that read back, high nibble first, as the unit. */
  function EscapeUnit(u: Unit): (t: Units)
    ensures NeedsEscape(u) ==>
      && |t| == 5 && t[0] == Percent
      && IsLowerHexDigit(t[1]) && IsLowerHexDigit(t[2])
      && IsLowerHexDigit(t[3]) && IsLowerHexDigit(t[4])
      && HexDigitValue(t[1]) * 4096 + HexDigitValue(t[2]) * 256
         + HexDigitValue(t[3]) * 16 + HexDigitValue(t[4]) == u
    ensures !NeedsEscape(u) ==> t == [u]
  {
    Nibbles(u);
    if NeedsEscape(u) then [Percent, ToHex(u / 4096), ToHex(u / 256), ToHex(u / 16), ToHex(u)]
    else [u]
  }

  lemma EscapeUnitPrintable(u: Unit)
    ensures 1 <= |EscapeUnit(u)| <= 5
    ensures forall k :: 0 <= k < |EscapeUnit(u)| ==> 32 <= EscapeUnit(u)[k] <= 127
  {
    var t := EscapeUnit(u);
    if NeedsEscape(u) {
      assert IsLowerHexDigit(t[1]) && IsLowerHexDigit(t[2]) && IsLowerHexDigit(t[3]) && IsLowerHexDigit(t[4]);
    }
  }

  lemma PrintableConcat(a: Units, b: Units)
    requires forall k :: 0 <= k < |a| ==> 32 <= a[k] <= 127
    requires forall k :: 0 <= k < |b| ==> 32 <= b[k] <= 127
    ensures forall k :: 0 <= k < |a + b| ==> 32 <= (a + b)[k] <= 127
  {
  }

  /** `_escapeTo7bit`: the output only holds units 32..127. */
  function Escape(s: Units): (r: Units)
    ensures forall k :: 0 <= k < |r| ==> 32 <= r[k] <= 127
    ensures |s| <= |r| <= 5 * |s|
  {
    if s == [] then []
    else
      EscapeUnitPrintable(s[0]);
      PrintableConcat(EscapeUnit(s[0]), Escape(s[1..]));
      EscapeUnit(s[0]) + Escape(s[1..])
  }

  /** `_escapeFrom7bit`: a '%' with at least four units after it is read as a
      group; any other unit, a short trailing '%' included, is copied. */
  function Unescape(s: Units): (r: Units)
    ensures |r| <= |s|
    decreases |s|
  {
    if s == [] then []
    else if s[0] == Percent && 4 < |s| then [GroupValue(s[1], s[2], s[3], s[4])] + Unescape(s[5..])
    else [s[0]] + Unescape(s[1..])
  }

  lemma {:induction false} EscapeAppend(a: Units, b: Units)
    ensures Escape(a + b) == Escape(a) + Escape(b)
    decreases |a|
  {
    if a == [] {
      assert a + b == b;
    } else {
      assert (a + b)[1..] == a[1..] + b;
      EscapeAppend(a[1..], b);
    }
  }

  /** Decoding one escaped unit followed by anything consumes exactly that unit. */
  lemma UnescapeEscapeUnit(u: Unit, t: Units)
    ensures Unescape(EscapeUnit(u) + t) == [u] + Unescape(t)
  {
    var e := EscapeUnit(u) + t;
    if NeedsEscape(u) {
      assert e[5..] == t;
      assert FromHex(e[1]) == HexDigitValue(e[1]);
      assert FromHex(e[2]) == HexDigitValue(e[2]);
      assert FromHex(e[3]) == HexDigitValue(e[3]);
      assert FromHex(e[4]) == HexDigitValue(e[4]);
    } else {
      assert e[1..] == t;
    }
  }

  /** Decoding an encoded prefix gives back that prefix, and leaves the rest
      to be decoded on its own. */
  lemma {:induction false} UnescapeEscapedPrefix(w: Units, t: Units)
    ensures Unescape(Escape(w) + t) == w + Unescape(t)
    decreases |w|
  {
    if w == [] {
      assert Escape(w) + t == t;
    } else {
      calc {
        Unescape(Escape(w) + t);
        { assert Escape(w) + t == EscapeUnit(w[0]) + (Escape(w[1..]) + t); }
        Unescape(EscapeUnit(w[0]) + (Escape(w[1..]) + t));
        { UnescapeEscapeUnit(w[0], Escape(w[1..]) + t); }
        [w[0]] + Unescape(Escape(w[1..]) + t);
        { UnescapeEscapedPrefix(w[1..], t); }
        [w[0]] + (w[1..] + Unescape(t));
        { assert [w[0]] + w[1..] == w; }
        w + Unescape(t);
      }
    }
  }

  /** Round trip: decoding an encoding gives the original text. */
  lemma RoundTrip(s: Units)
    ensures Unescape(Escape(s)) == s
  {
    UnescapeEscapedPrefix(s, []);
    assert Escape(s) + [] == Escape(s);
    assert s + [] == s;
  }

  /** The encoding is injective, so distinct texts never collide on the wire. */
  lemma EscapeInjective(a: Units, b: Units)
    requires Escape(a) == Escape(b)
    ensures a == b
  {
    RoundTrip(a);
    RoundTrip(b);
  }

  /** At most four units: nothing can form a group, all is copied. */
  lemma {:induction false} ShortIsLiteral(s: Units)
    requires |s| <= 4
    ensures Unescape(s) == s
    decreases |s|
  {
    if s != [] {
      ShortIsLiteral(s[1..]);
      assert [s[0]] + s[1..] == s;
    }
  }

  /** A trailing '%' with fewer than four units after it is passed through
      literally, whatever well-formed text precedes it. */
  lemma TrailingPercentIsLiteral(w: Units, x: Units)
    requires |x| < 4
    ensures Unescape(Escape(w) + [Percent] + x) == w + [Percent] + x
  {
    DecodedPrefixThenLiteral(w, Escape(w), [Percent] + x);
    Regroup(Escape(w), [Percent], x);
    Regroup(w, [Percent], x);
  }

  lemma Regroup(a: Units, b: Units, c: Units)
    ensures a + b + c == a + (b + c)
  {
  }

  lemma DecodedPrefixThenLiteral(w: Units, e: Units, tail: Units)
    requires e == Escape(w) && |tail| <= 4
    ensures Unescape(e + tail) == w + tail
  {
    UnescapeEscapedPrefix(w, tail);
    ShortIsLiteral(tail);
  }

  /** The malformed trailing "%1" decodes to "%1". */
  lemma PercentOneIsLiteral()
    ensures Unescape([Percent, 49]) == [Percent, 49]
  {
    ShortIsLiteral([Percent, 49]);
  }

  /** The '%' of one unit's encoding is its first unit and opens a group. */
  lemma EscapeUnitPercent(u: Unit, k: nat)
    requires k < |EscapeUnit(u)| && EscapeUnit(u)[k] == Percent
    ensures k == 0 && |EscapeUnit(u)| == 5
    ensures forall m :: 0 < m <= 4 ==> IsLowerHexDigit(EscapeUnit(u)[m])
  {
    var t := EscapeUnit(u);
    if NeedsEscape(u) {
      assert IsLowerHexDigit(t[1]) && IsLowerHexDigit(t[2]) && IsLowerHexDigit(t[3]) && IsLowerHexDigit(t[4]);
    }
  }

  /** A group inside `h` stays a group in `h + t`. */
  lemma GroupInPrefix(h: Units, t: Units, k: nat)
    requires k + 4 < |h| && forall m :: k < m <= k + 4 ==> IsLowerHexDigit(h[m])
    ensures k + 4 < |h + t| && forall m :: k < m <= k + 4 ==> IsLowerHexDigit((h + t)[m])
  {
  }

  /** A group inside `t` is a group in `h + t`, shifted by `|h|`. */
  lemma GroupInSuffix(h: Units, t: Units, k: nat)
    requires k + 4 < |t| && forall m :: k < m <= k + 4 ==> IsLowerHexDigit(t[m])
    ensures |h| + k + 4 < |h + t|
    ensures forall m :: |h| + k < m <= |h| + k + 4 ==> IsLowerHexDigit((h + t)[m])
  {
    forall m | |h| + k < m <= |h| + k + 4
      ensures IsLowerHexDigit((h + t)[m])
    {
      assert (h + t)[m] == t[m - |h|];
    }
  }

  lemma EscapeCons(s: Units)
    requires s != []
    ensures Escape(s) == EscapeUnit(s[0]) + Escape(s[1..])
  {
  }

  /** Every '%' of an encoding starts a group of four lower-case hex digits. */
  lemma {:induction false} EscapedPercentStartsGroup(s: Units, k: nat)
    requires k < |Escape(s)| && Escape(s)[k] == Percent
    ensures k + 4 < |Escape(s)|
    ensures forall m :: k < m <= k + 4 ==> IsLowerHexDigit(Escape(s)[m])
    decreases |s|
  {
    var head, rest := EscapeUnit(s[0]), Escape(s[1..]);
    EscapeCons(s);
    if k < |head| {
      assert head[k] == Percent;
      EscapeUnitPercent(s[0], k);
      GroupInPrefix(head, rest, k);
    } else {
      assert rest[k - |head|] == Percent;
      EscapedPercentStartsGroup(s[1..], k - |head|);
      GroupInSuffix(head, rest, k - |head|);
    }
  }

  /** The same statement for all positions at once. */
  lemma EscapedPercentsStartGroups(s: Units)
    ensures forall k :: 0 <= k < |Escape(s)| && Escape(s)[k] == Percent ==>
      k + 4 < |Escape(s)| && forall m :: k < m <= k + 4 ==> IsLowerHexDigit(Escape(s)[m])
  {
    forall k | 0 <= k < |Escape(s)| && Escape(s)[k] == Percent
      ensures k + 4 < |Escape(s)| && forall m :: k < m <= k + 4 ==> IsLowerHexDigit(Escape(s)[m])
    {
      EscapedPercentStartsGroup(s, k);
    }
  }

  /** A %-group never holds ';'. */
  lemma EscapeUnitSemicolon(u: Unit)
    ensures Semicolon in EscapeUnit(u) <==> u == Semicolon
  {
    var t := EscapeUnit(u);
    if NeedsEscape(u) {
      assert forall k :: 0 <= k < 5 ==> t[k] != Semicolon;
    }
  }

  lemma InConcat(x: Unit, a: Units, b: Units)
    ensures x in a + b <==> x in a || x in b
  {
    if x in a + b {
      var k :| 0 <= k < |a + b| && (a + b)[k] == x;
      if k >= |a| {
        assert b[k - |a|] == x;
      }
    }
    if x in b {
      var k :| 0 <= k < |b| && b[k] == x;
      assert (a + b)[|a| + k] == x;
    }
  }

  /** ';' is printable and not escaped: an encoding holds a ';' exactly when
      the text did, so ';'-framing is only unambiguous for ';'-free text. */
  lemma {:induction false} EscapeKeepsSemicolons(s: Units)
    ensures Semicolon in Escape(s) <==> Semicolon in s
    decreases |s|
  {
    if s != [] {
      EscapeKeepsSemicolons(s[1..]);
      EscapeUnitSemicolon(s[0]);
      InConcat(Semicolon, EscapeUnit(s[0]), Escape(s[1..]));
      InConcat(Semicolon, [s[0]], s[1..]);
      assert s == [s[0]] + s[1..];
    }
  }

  /** `_escapeTo7bit` as the source's loop. */
  method EscapeTo7bit(str: Units) returns (result: Units)
    ensures result == Escape(str)
  {
    result := [];
    var i := 0;
    while i != |str|
      invariant 0 <= i <= |str|
      invariant result == Escape(str[..i])
    {
      assert str[..i + 1] == str[..i] + [str[i]];
      EscapeAppend(str[..i], [str[i]]);
      assert Escape([str[i]]) == EscapeUnit(str[i]) + Escape([]);
      result := result + EscapeUnit(str[i]);
      i := i + 1;
    }
    assert str[..i] == str;
  }

  /** One group read at position `i`. */
  lemma UnescapeGroupAt(str: Units, i: nat)
    requires i + 4 < |str| && str[i] == Percent
    ensures Unescape(str[i..]) == [GroupValue(str[i + 1], str[i + 2], str[i + 3], str[i + 4])] + Unescape(str[i + 5..])
  {
    assert str[i..][5..] == str[i + 5..];
  }

  /** One unit copied at position `i`. */
  lemma UnescapeLiteralAt(str: Units, i: nat)
    requires i < |str| && !(str[i] == Percent && i + 4 < |str|)
    ensures Unescape(str[i..]) == [str[i]] + Unescape(str[i + 1..])
  {
    assert str[i..][1..] == str[i + 1..];
  }

  /** `_escapeFrom7bit` as the source's loop, which skips four extra units
      after a decoded group. */
  method EscapeFrom7bit(str: Units) returns (result: Units)
    ensures result == Unescape(str)
  {
    result := [];
    var i := 0;
    while i != |str|
      invariant 0 <= i <= |str|
      invariant result + Unescape(str[i..]) == Unescape(str)
    {
      ghost var before := result;
      var decoded;
      if str[i] == Percent && i + 4 < |str| {
        UnescapeGroupAt(str, i);
        decoded := GroupValue(str[i + 1], str[i + 2], str[i + 3], str[i + 4]);
        i := i + 5;
      } else {
        UnescapeLiteralAt(str, i);
        decoded := str[i];
        i := i + 1;
      }
      result := result + [decoded];
      assert before + ([decoded] + Unescape(str[i..])) == result + Unescape(str[i..]);
    }
    assert result + Unescape([]) == result;
  }
}

=== FILE: lifecycle.dfy ===
/**
  The lifecycle decisions of the application shell: choosing the primary
  role after a failed connect, the startup decision on the crash-report
  outcome, idempotent shutdown, and delayed window activation. Results of
  Qt and of the operating system are parameters.
 */
module Lifecycle {
  import opened Basics
  import opened CommandRelay

  // ---------------------------------------------------------------------
  // socketError: role arbitration

  /** The connect error; only its logging depends on the kind. */
  datatype SocketErrorKind = ServerNotFound | OtherSocketError(code: int)

  datatype Arbitration =
    | IgnoredWhileQuitting   // already quitting: nothing happens
    | SecondaryQuits         // the secondary lost the primary
    | ListenFailed           // could not become the primary: quit
    | InstallUpdate          // an update is ready: restart into it
    | BecomePrimary          // listening; go on with `singleInstanceChecked`

  /** What the environment answers during `socketError`. */
  datatype ArbiterWorld = ArbiterWorld(
    quitting: bool,
    secondInstance: bool,
    listenOk: bool,
    updaterDisabled: bool,
    noStartUpdate: bool,
    updateReady: bool)

  /** `socketError`: a connect failure makes this process try to become the
      primary, whatever the error. */
  function SocketError(w: ArbiterWorld, e: SocketErrorKind): (o: Arbitration)
    ensures o == BecomePrimary <==>
      && !w.quitting && !w.secondInstance && w.listenOk
      && (w.updaterDisabled || w.noStartUpdate || !w.updateReady)
    ensures o == ListenFailed <==> !w.quitting && !w.secondInstance && !w.listenOk
    ensures o == SecondaryQuits <==> !w.quitting && w.secondInstance
    ensures o == InstallUpdate <==>
      && !w.quitting && !w.secondInstance && w.listenOk
      && !w.updaterDisabled && !w.noStartUpdate && w.updateReady
    ensures w.quitting ==> o == IgnoredWhileQuitting
  {
    if w.quitting then IgnoredWhileQuitting
    else if w.secondInstance then SecondaryQuits
    else if !w.listenOk then ListenFailed
    else if !w.updaterDisabled && !w.noStartUpdate && w.updateReady then InstallUpdate
    else BecomePrimary
  }

  /** The kind of connect error never changes the decision: a transient
      error followed by a lost race still reports the failed listen. */
  lemma ErrorKindIrrelevant(w: ArbiterWorld, e1: SocketErrorKind, e2: SocketErrorKind)
    ensures SocketError(w, e1) == SocketError(w, e2)
  {
  }

  // ---------------------------------------------------------------------
  // singleInstanceChecked: the startup decision

  datatype CrashStatus = CantOpen | Started

  /** `CrashReports::Start()`: a status, or the dump of the last session. */
  datatype StartResult = Status(status: CrashStatus) | Dump(dump: seq<int>)

  datatype Startup =
    | NotStartedWindow
    | LaunchApplication
    | LastCrashedWindow(dump: seq<int>)

  /** What the environment answers during `singleInstanceChecked`; `restart`
      is the answer of `CrashReports::Restart()`, asked only for an empty dump. */
  datatype StartupWorld = StartupWorld(
    manyInstance: bool,
    logsStarted: bool,
    instanceChecked: bool,
    start: StartResult,
    restart: CrashStatus)

  /** Logging is running and, unless several instances are allowed, owned by
      this instance. */
  predicate LogsReady(w: StartupWorld)
  {
    w.logsStarted && (w.manyInstance || w.instanceChecked)
  }

  /** `singleInstanceChecked`. */
  function SingleInstanceChecked(w: StartupWorld): (o: Startup)
    ensures o == LaunchApplication <==>
      && LogsReady(w)
      && ((w.start.Status? && w.start.status != CantOpen)
          || (w.start.Dump? && w.start.dump == [] && w.restart != CantOpen))
    ensures o.LastCrashedWindow? <==> LogsReady(w) && w.start.Dump? && w.start.dump != []
    ensures o.LastCrashedWindow? ==> o.dump == w.start.dump
  {
    if !LogsReady(w) then NotStartedWindow
    else match w.start
      case Status(status) => if status == CantOpen then NotStartedWindow else LaunchApplication
      case Dump(dump) =>
        if dump == [] then (if w.restart == CantOpen then NotStartedWindow else LaunchApplication)
        else LastCrashedWindow(dump)
  }

  /** Every startup shows a window or launches: the three outcomes are all
      there is, and the fallback window is shown exactly when neither of
      the others happens. */
  lemma StartupFallback(w: StartupWorld)
    ensures SingleInstanceChecked(w) == NotStartedWindow <==>
      || !LogsReady(w)
      || w.start == Status(CantOpen)
      || (w.start == Dump([]) && w.restart == CantOpen)
  {
  }

  // ---------------------------------------------------------------------
  // closeApplication

  datatype LaunchState = Launched | QuitRequested | QuitProcessed

  /** The resources `closeApplication` releases. */
  datatype Shell = Shell(
    launch: LaunchState,
    hasApplication: bool,
    serverListening: bool,
    clients: seq<LocalClient>,
    socketOpen: bool,
    hasUpdateChecker: bool)

  function ClientIds(clients: seq<LocalClient>): (r: seq<nat>)
    ensures |r| == |clients|
    ensures forall i :: 0 <= i < |clients| ==> r[i] == clients[i].id
  {
    if clients == [] then [] else [clients[0].id] + ClientIds(clients[1..])
  }

  /** A shell with nothing left to release. */
  predicate Released(s: Shell)
  {
    && s.launch == QuitProcessed
    && !s.hasApplication && !s.serverListening && s.clients == []
    && !s.socketOpen && !s.hasUpdateChecker
  }

  /** `closeApplication`: the first call releases everything and closes each
      accepted client (their ids, in order); later calls do nothing. */
  function CloseApplication(s: Shell): (r: (Shell, seq<nat>))
    ensures s.launch == QuitProcessed ==> r == (s, [])
    ensures s.launch != QuitProcessed ==> Released(r.0) && r.1 == ClientIds(s.clients)
  {
    if s.launch == QuitProcessed then (s, [])
    else (Shell(QuitProcessed, false, false, [], false, false), ClientIds(s.clients))
  }

  /** Shutting down twice ends in the same state as once, and the second call
      closes nothing. */
  lemma CloseIdempotent(s: Shell)
    ensures CloseApplication(CloseApplication(s).0) == (CloseApplication(s).0, [])
  {
  }

  // ---------------------------------------------------------------------
  // activateWindowDelayed, pause and resume

  type WidgetId = nat

  /** `queued` counts the activation callbacks posted to the main loop and
      not yet run. */
  datatype Activation = Activation(paused: bool, pending: Option<WidgetId>, queued: nat)

  /** Whatever is pending will be looked at by a queued callback. */
  predicate ActivationValid(a: Activation)
  {
    a.pending.Some? ==> a.queued > 0
  }

  /** `activateWindowDelayed`: ignored while paused; otherwise the widget
      replaces any pending one, and a callback is posted only if none was
      pending. */
  function ActivateWindowDelayed(a: Activation, w: WidgetId): (r: Activation)
    requires ActivationValid(a)
    ensures ActivationValid(r)
    ensures a.paused ==> r == a
    ensures !a.paused ==> r.pending == Some(w) && !r.paused
    ensures !a.paused ==> r.queued == a.queued + (if a.pending.None? then 1 else 0)
  {
    if a.paused then a
    else if a.pending.Some? then a.(pending := Some(w))
    else a.(pending := Some(w), queued := a.queued + 1)
  }

  /** The posted callback: take the pending widget and activate it unless it
      is hidden. */
  function RunActivation(a: Activation, hidden: WidgetId -> bool): (r: (Activation, Option<WidgetId>))
    requires ActivationValid(a) && a.queued > 0
    ensures ActivationValid(r.0)
    ensures r.0.pending == None && r.0.queued == a.queued - 1 && r.0.paused == a.paused
    ensures r.1.Some? <==> a.pending.Some? && !hidden(a.pending.value)
    ensures r.1.Some? ==> r.1 == a.pending
  {
    var activated := if a.pending.Some? && !hidden(a.pending.value) then a.pending else None;
    (a.(pending := None, queued := a.queued - 1), activated)
  }

  /** `pauseDelayedWindowActivations`: drop the pending widget and pause. */
  function Pause(a: Activation): (r: Activation)
    requires ActivationValid(a)
    ensures ActivationValid(r) && r.paused && r.pending == None && r.queued == a.queued
  {
    a.(pending := None, paused := true)
  }

  /** `resumeDelayedWindowActivations`. */
  function Resume(a: Activation): (r: Activation)
    requires ActivationValid(a)
    ensures ActivationValid(r) && !r.paused && r.pending == a.pending && r.queued == a.queued
  {
    a.(paused := false)
  }

  /** The latest request wins: two requests before the callback runs post
      one callback, and it activates the second widget. */
  lemma LatestWidgetWins(a: Activation, w1: WidgetId, w2: WidgetId, hidden: WidgetId -> bool)
    requires ActivationValid(a) && !a.paused && a.pending == None
    requires !hidden(w2)
    ensures var b := ActivateWindowDelayed(ActivateWindowDelayed(a, w1), w2);
      && b.queued == a.queued + 1
      && RunActivation(b, hidden).1 == Some(w2)
  {
  }

  /** A request made while paused is lost even after resuming. */
  lemma PausedRequestIsDropped(a: Activation, w: WidgetId, hidden: WidgetId -> bool)
    requires ActivationValid(a) && a.queued > 0
    ensures var b := Resume(ActivateWindowDelayed(Pause(a), w));
      RunActivation(b, hidden).1 == None
  {
  }
}

=== FILE: nesting.dfy ===
/**
  The nesting-level tracker of the application shell: an event-dispatch
  depth, a loop depth, a history stack of outer loop depths, and a stack of
  postponed calls tagged with the loop depth they were postponed at.
  Callables are opaque ids; running one appends its id to a trace.
 */
module NestingTracker {
  import opened Basics

  type CallId = nat

  datatype Postponed = Postponed(level: int, call: CallId)

  datatype Tracker = Tracker(event: int, loop: int, history: seq<int>, postponed: seq<Postponed>)

  /** A transition together with the calls it ran, in the order it ran them. */
  datatype Step = Step(tracker: Tracker, ran: seq<CallId>)

  /** Before any event: both levels 0, both stacks empty. */
  const Initial := Tracker(0, 0, [], [])

  /** The bookkeeping invariant. The loop level never exceeds the event level;
      the history holds the outer loop levels, from 0 upwards, all below the
      current one, so it is empty exactly when the loop level is 0. */
  predicate Valid(t: Tracker)
  {
    && 0 <= t.loop <= t.event
    && (t.history == [] <==> t.loop == 0)
    && (t.history != [] ==> t.history[0] == 0 && Last(t.history) < t.loop)
    && (forall i, j :: 0 <= i < j < |t.history| ==> t.history[i] < t.history[j])
  }

  lemma InitialValid()
    ensures Valid(Initial)
  {
  }

  /** Leaving the innermost loop: the loop level goes back to the last saved one. */
  function PopLoop(t: Tracker): (r: Tracker)
    requires Valid(t) && t.history != []
    ensures r.history == DropLast(t.history) && r.loop == Last(t.history)
    ensures r.loop < t.loop && r.event == t.event && r.postponed == t.postponed
    ensures Valid(r.(event := t.event - 1))
  {
    t.(loop := Last(t.history), history := DropLast(t.history))
  }

  /** `incrementEventNestingLevel`. */
  function Increment(t: Tracker): (r: Tracker)
    requires Valid(t)
    ensures Valid(r)
    ensures r.event == t.event + 1 && r.loop == t.loop
    ensures r.history == t.history && r.postponed == t.postponed
  {
    t.(event := t.event + 1)
  }

  /** `registerEnterFromEventLoop`: a native loop was entered below the
      current event, so the loop level rises to the event level. */
  function RegisterEnter(t: Tracker): (r: Tracker)
    requires Valid(t)
    ensures Valid(r)
    ensures t.event > t.loop ==> r.history == t.history + [t.loop] && r.loop == t.event
    ensures t.event <= t.loop ==> r == t
    ensures r.event == t.event && r.postponed == t.postponed
  {
    if t.event > t.loop then t.(history := t.history + [t.loop], loop := t.event) else t
  }

  /** `processPostponedCalls`: pop and run the calls tagged `level` from the
      top of the stack until one with another tag (or none) is on top. */
  function Process(calls: seq<Postponed>, level: int): (r: (seq<Postponed>, seq<CallId>))
    ensures |r.0| <= |calls| && r.0 == calls[..|r.0|]
    ensures forall i :: |r.0| <= i < |calls| ==> calls[i].level == level
    ensures r.0 != [] ==> Last(r.0).level != level
    ensures |r.1| == |calls| - |r.0|
    ensures forall j :: 0 <= j < |r.1| ==> r.1[j] == calls[|calls| - 1 - j].call
  {
    if calls == [] || Last(calls).level != level then (calls, [])
    else
      var rest := Process(DropLast(calls), level);
      (rest.0, [Last(calls).call] + rest.1)
  }

  /** `decrementEventNestingLevel`: leave the loop if this event was its
      innermost level, then run the calls postponed one level down, and
      lower the event level by one. */
  function Decrement(t: Tracker): (r: Step)
    requires Valid(t) && t.event > 0
    ensures Valid(r.tracker)
    ensures r.tracker.event == t.event - 1
    ensures r.tracker.postponed == Process(t.postponed, t.event - 1).0
    ensures r.ran == Process(t.postponed, t.event - 1).1
    ensures r.tracker.loop == (if t.event == t.loop then Last(t.history) else t.loop)
    ensures r.tracker.history == (if t.event == t.loop then DropLast(t.history) else t.history)
  {
    var t1 := if t.event == t.loop then PopLoop(t) else t;
    var processed := Process(t1.postponed, t.event - 1);
    Step(t1.(postponed := processed.0, event := t.event - 1), processed.1)
  }

  /** The assertion `postponeCall` makes before correcting the loop level:
      if the loop level has caught up with the event level, the loop was
      already left, so no call may be tagged with it and there must be an
      outer level to return to. */
  predicate CanPostpone(t: Tracker)
  {
    t.loop == t.event ==>
      && (t.postponed == [] || Last(t.postponed).level < t.loop)
      && t.history != []
  }

  /** `postponeCall`: correct the loop level if needed, then push the call
      tagged with the loop level. The tag is always below the event level. */
  function Postpone(t: Tracker, call: CallId): (r: Tracker)
    requires Valid(t) && CanPostpone(t)
    ensures Valid(r)
    ensures r.postponed == t.postponed + [Postponed(r.loop, call)]
    ensures r.loop < r.event == t.event
    ensures t.loop == t.event ==> r.loop == Last(t.history) && r.history == DropLast(t.history)
    ensures t.loop != t.event ==> r.loop == t.loop && r.history == t.history
  {
    var t1 := if t.loop == t.event then PopLoop(t) else t;
    t1.(postponed := t1.postponed + [Postponed(t1.loop, call)])
  }

  function Ids(calls: seq<Postponed>): seq<CallId>
  {
    if calls == [] then [] else Ids(DropLast(calls)) + [Last(calls).call]
  }

  function Reverse<T>(s: seq<T>): seq<T>
  {
    if s == [] then [] else Reverse(s[1..]) + [s[0]]
  }

  /** Nothing postponed is lost or run twice: the calls run, read in
      postponing order, are exactly the ones removed from the top. */
  lemma {:induction false} ProcessConserves(calls: seq<Postponed>, level: int)
    ensures Ids(calls) == Ids(Process(calls, level).0) + Reverse(Process(calls, level).1)
    decreases |calls|
  {
    if calls != [] && Last(calls).level == level {
      var rest := Process(DropLast(calls), level);
      ProcessConserves(DropLast(calls), level);
      assert ([Last(calls).call] + rest.1)[1..] == rest.1;
    }
  }

  /** Running the calls of one level twice in a row finds nothing the second
      time: the run removed is maximal. */
  lemma ProcessDrains(calls: seq<Postponed>, level: int)
    ensures Process(Process(calls, level).0, level) == (Process(calls, level).0, [])
  {
  }

  /** Two calls of one level on top of others run last first. */
  lemma ProcessTwo(base: seq<Postponed>, level: int, a: CallId, b: CallId)
    requires base == [] || Last(base).level != level
    ensures Process(base + [Postponed(level, a), Postponed(level, b)], level) == (base, [b, a])
  {
    var one := base + [Postponed(level, a)];
    var calls := one + [Postponed(level, b)];
    assert base + [Postponed(level, a), Postponed(level, b)] == calls;
    assert DropLast(one) == base && Last(one) == Postponed(level, a);
    assert Process(base, level) == (base, []);
    assert [a] + Process(base, level).1 == [a];
    assert Process(one, level) == (base, [a]);
    assert DropLast(calls) == one && Last(calls) == Postponed(level, b);
    assert [b] + Process(one, level).1 == [b, a];
  }

  /** A dispatch without nested loops: from a state where the loop level is
      one below the event level, postponing `a` then `b` and finishing the
      event runs `b` before `a` and leaves the earlier calls in place. */
  lemma PostponedRunLastFirst(t: Tracker, a: CallId, b: CallId)
    requires Valid(t) && t.loop == t.event - 1
    requires t.postponed == [] || Last(t.postponed).level != t.loop
    ensures var d := Decrement(Postpone(Postpone(t, a), b));
      d.ran == [b, a] && d.tracker.postponed == t.postponed && d.tracker.event == t.event - 1
  {
    PostponeTwice(t, a, b);
    ProcessTwo(t.postponed, t.loop, a, b);
  }

  /** Below the loop level, postponing only pushes. */
  lemma PostponeTwice(t: Tracker, a: CallId, b: CallId)
    requires Valid(t) && t.loop < t.event
    ensures Postpone(Postpone(t, a), b)
      == t.(postponed := t.postponed + [Postponed(t.loop, a), Postponed(t.loop, b)])
  {
    assert t.postponed + [Postponed(t.loop, a)] + [Postponed(t.loop, b)]
      == t.postponed + [Postponed(t.loop, a), Postponed(t.loop, b)];
  }

  /** A native nested loop entered during an event, with a call postponed
      inside an inner event: finishing the inner event runs the call, and
      finishing the outer event leaves the loop and returns to the initial
      state. */
  lemma ImplicitLoopScenario(call: CallId)
    ensures RegisterEnter(Increment(Initial)) == InLoop
    ensures Postpone(Increment(InLoop), call) == Tracker(2, 1, [0], [Postponed(1, call)])
    ensures Decrement(Tracker(2, 1, [0], [Postponed(1, call)])) == Step(InLoop, [call])
    ensures Decrement(InLoop) == Step(Initial, [])
  {
    var t2 := Tracker(2, 1, [0], [Postponed(1, call)]);
    assert Valid(t2);
    assert DropLast(t2.postponed) == [];
    assert Process(t2.postponed, 1) == ([], [call] + []);
    assert Process([], 0) == ([], []);
  }

  /** Inside a native loop entered from the first event. */
  const InLoop := Tracker(1, 1, [0], [])

  /** A call postponed after a native loop was silently left corrects the
      loop level first, and runs when the event that saw it finishes. */
  lemma CorrectedLoopScenario(call: CallId)
    ensures var t1 := RegisterEnter(Increment(Initial));
      && var t2 := Postpone(t1, call);
      && t2 == Tracker(1, 0, [], [Postponed(0, call)])
      && Decrement(t2) == Step(Initial, [call])
  {
  }
}

=== FILE: relay.dfy ===
/**
  The command relay over the local socket: the secondary instance's command
  string, the primary's parsing of every client's buffered bytes into
  ';'-terminated frames, the `RES:<pid>;` replies, and the secondary's reading
  of that reply.
 */
module CommandRelay {
  import opened Basics
  import opened WireCodec

  const CmdTag: Units := [67, 77, 68, 58]       // "CMD:"
  const SendTag: Units := [83, 69, 78, 68, 58]  // "SEND:"
  const OpenTag: Units := [79, 80, 69, 78, 58]  // "OPEN:"
  const ResTag: Units := [82, 69, 83, 58]       // "RES:"
  const Show: Units := [115, 104, 111, 119]     // "show"

  /** Decoded start URLs are cut to this many units. */
  const MaxStartUrlLength: nat := 8192

  /** `kEmptyPidForCommandResponse`: "nothing was activated". */
  const EmptyPid: nat := 0

  /** `toULongLong` gives up (returns 0) from 2^64 on. */
  const ULongLongLimit: nat := 0x1_0000_0000_0000_0000

  // ---------------------------------------------------------------------
  // Decimal process ids

  predicate IsDigit(c: Unit)
  {
    48 <= c <= 57
  }

  predicate AllDigits(s: Units)
  {
    forall k :: 0 <= k < |s| ==> IsDigit(s[k])
  }

  /** `QString::arg` of an unsigned number: its decimal digits. */
  function Decimal(n: nat): (r: Units)
    ensures |r| > 0 && AllDigits(r)
    decreases n
  {
    if n < 10 then [48 + n] else Decimal(n / 10) + [48 + n % 10]
  }

  /** The number a string of decimal digits denotes. */
  function DigitsValue(s: Units): nat
    requires AllDigits(s)
  {
    if s == [] then 0 else DigitsValue(DropLast(s)) * 10 + (Last(s) - 48)
  }

  lemma {:induction false} DecimalValue(n: nat)
    ensures DigitsValue(Decimal(n)) == n
    decreases n
  {
    if n >= 10 {
      DecimalValue(n / 10);
      assert DropLast(Decimal(n)) == Decimal(n / 10);
    }
  }

  /** `QByteArray::toULongLong`, for digit strings: their value below 2^64, else 0. */
  function ToULongLong(s: Units): nat
  {
    if s != [] && AllDigits(s) && DigitsValue(s) < ULongLongLimit then DigitsValue(s) else 0
  }

  /** The reply `RES:<pid>;` written by the primary. */
  function Response(pid: nat): Units
  {
    ResTag + Decimal(pid) + [Semicolon]
  }

  // ---------------------------------------------------------------------
  // Framing

  /** The wire form of a list of frames: each one followed by ';'. */
  function Join(frames: seq<Units>): Units
  {
    if frames == [] then [] else frames[0] + [Semicolon] + Join(frames[1..])
  }

  /** `indexOf`: the first position holding `c`. */
  function IndexOf(s: Units, c: Unit): (k: nat)
    requires c in s
    ensures k < |s| && s[k] == c && c !in s[..k]
  {
    if s[0] == c then 0
    else
      assert s == [s[0]] + s[1..];
      1 + IndexOf(s[1..], c)
  }

  lemma JoinCons(f: Units, rest: seq<Units>)
    ensures Join([f] + rest) == f + [Semicolon] + Join(rest)
  {
    assert ([f] + rest)[1..] == rest;
  }

  lemma Reassemble(s: Units, k: nat)
    requires k < |s| && s[k] == Semicolon
    ensures s == s[..k] + [Semicolon] + s[k + 1..]
  {
  }

  lemma SplitStep(s: Units, k: nat, frames: seq<Units>, tail: Units)
    requires k < |s| && s[k] == Semicolon
    requires Join(frames) + tail == s[k + 1..]
    ensures Join([s[..k]] + frames) + tail == s
  {
    JoinCons(s[..k], frames);
    Reassemble(s, k);
  }

  /** The complete ';'-terminated frames of a buffer, in stream order, and the
      tail after the last ';'. */
  function SplitFrames(s: Units): (r: (seq<Units>, Units))
    ensures Join(r.0) + r.1 == s
    ensures forall i :: 0 <= i < |r.0| ==> Semicolon !in r.0[i]
    ensures Semicolon !in r.1
    decreases |s|
  {
    if Semicolon !in s then ([], s)
    else
      var k := IndexOf(s, Semicolon);
      var rest := SplitFrames(s[k + 1..]);
      var frames := [s[..k]] + rest.0;
      SplitStep(s, k, rest.0, rest.1);
      (frames, rest.1)
  }

  predicate SemicolonFree(frames: seq<Units>)
  {
    forall i :: 0 <= i < |frames| ==> Semicolon !in frames[i]
  }

  lemma {:induction false} JoinAppend(a: seq<Units>, b: seq<Units>)
    ensures Join(a + b) == Join(a) + Join(b)
    decreases |a|
  {
    if a == [] {
      assert a + b == b;
    } else {
      assert (a + b)[1..] == a[1..] + b;
      JoinAppend(a[1..], b);
    }
  }

  /** Splitting recovers exactly the frames that were joined, provided no
      frame and not the tail holds a ';'. */
  lemma {:induction false} SplitJoin(frames: seq<Units>, tail: Units)
    requires SemicolonFree(frames) && Semicolon !in tail
    ensures SplitFrames(Join(frames) + tail) == (frames, tail)
    decreases |frames|
  {
    if frames == [] {
      assert Join(frames) + tail == tail;
    } else {
      var f := frames[0];
      var rest := Join(frames[1..]) + tail;
      JoinCons(f, frames[1..]);
      assert [f] + frames[1..] == frames;
      assert Join(frames) + tail == f + [Semicolon] + rest;
      FirstSemicolon(f, rest);
      SplitJoin(frames[1..], tail);
    }
  }

  /** In `f ; rest` with a ';'-free `f`, the first ';' ends `f`. */
  lemma FirstSemicolon(f: Units, rest: Units)
    requires Semicolon !in f
    ensures var s := f + [Semicolon] + rest;
      Semicolon in s && IndexOf(s, Semicolon) == |f| && s[..|f|] == f && s[|f| + 1..] == rest
  {
    var s := f + [Semicolon] + rest;
    assert s[|f|] == Semicolon;
    assert s[..|f|] == f;
  }

  /** Frames come out in stream order whatever the read boundaries: splitting
      what arrived in two reads, carrying the first tail over, equals splitting
      everything at once. */
  lemma SplitChunked(b1: Units, b2: Units)
    ensures SplitFrames(b1 + b2)
      == (SplitFrames(b1).0 + SplitFrames(SplitFrames(b1).1 + b2).0, SplitFrames(SplitFrames(b1).1 + b2).1)
  {
    var r1 := SplitFrames(b1);
    var r2 := SplitFrames(r1.1 + b2);
    ChunkedJoin(r1.0, r1.1, r2.0, r2.1, b2);
    SemicolonFreeAppend(r1.0, r2.0);
    SplitJoin(r1.0 + r2.0, r2.1);
  }

  lemma ChunkedJoin(f1: seq<Units>, t1: Units, f2: seq<Units>, t2: Units, b2: Units)
    requires Join(f2) + t2 == t1 + b2
    ensures Join(f1) + t1 + b2 == Join(f1 + f2) + t2
  {
    JoinAppend(f1, f2);
    assert Join(f1) + t1 + b2 == Join(f1) + (t1 + b2);
    assert Join(f1 + f2) + t2 == Join(f1) + (Join(f2) + t2);
  }

  lemma SemicolonFreeAppend(a: seq<Units>, b: seq<Units>)
    requires SemicolonFree(a) && SemicolonFree(b)
    ensures SemicolonFree(a + b)
  {
    forall i | 0 <= i < |a + b|
      ensures Semicolon !in (a + b)[i]
    {
      if i >= |a| {
        assert (a + b)[i] == b[i - |a|];
      }
    }
  }

  // ---------------------------------------------------------------------
  // Commands

  /** A frame, classified by its tag. The `CMD:` argument stays encoded. */
  datatype Command = Exec(arg: Units) | Send(payload: Units) | Open(payload: Units) | Unknown(text: Units)

  predicate StartsWith(s: Units, p: Units)
  {
    |p| <= |s| && s[..|p|] == p
  }

  /** The frame text a command is read from. */
  function Render(c: Command): Units
  {
    match c
    case Exec(a) => CmdTag + a
    case Send(p) => SendTag + p
    case Open(p) => OpenTag + p
    case Unknown(t) => t
  }

  predicate Tagged(s: Units)
  {
    StartsWith(s, CmdTag) || StartsWith(s, SendTag) || StartsWith(s, OpenTag)
  }

  /** The tag tests of `readClients`, in its order; the payload is the rest. */
  function Classify(frame: Units): (c: Command)
    ensures Render(c) == frame
    ensures c.Unknown? <==> !Tagged(frame)
  {
    if StartsWith(frame, CmdTag) then Exec(frame[4..])
    else if StartsWith(frame, SendTag) then Send(frame[5..])
    else if StartsWith(frame, OpenTag) then Open(frame[5..])
    else Unknown(frame)
  }

  /** Classification reads back every command whose text is unambiguous. */
  lemma ClassifyRender(c: Command)
    requires c.Unknown? ==> !Tagged(c.text)
    ensures Classify(Render(c)) == c
  {
    match c
    case Exec(a) => assert Render(c)[4..] == a;
    case Send(p) =>
      assert Render(c)[5..] == p;
      assert Render(c)[0] != CmdTag[0];
    case Open(p) =>
      assert Render(c)[5..] == p;
      assert Render(c)[0] != CmdTag[0];
      assert Render(c)[0] != SendTag[0];
    case Unknown(t) =>
  }

  // ---------------------------------------------------------------------
  // Server side: readClients

  /** An accepted connection: bytes the socket has ready, and the bytes
      buffered but not yet parsed. */
  datatype LocalClient = LocalClient(id: nat, connected: bool, incoming: Units, buffer: Units)

  /** Process-wide `cSendPaths()` and `cStartUrl()`. */
  datatype Globals = Globals(sendPaths: seq<Units>, startUrl: Units)

  /** What the primary knows while parsing: the globals as they were when
      `readClients` started, its own pid, and the URL policy
      `StartUrlRequiresActivate`. */
  datatype Context = Context(globals: Globals, ownPid: nat, requiresActivate: Units -> bool)

  /** Observable effects, in the order the source performs them. */
  datatype Effect =
    | Write(client: nat, data: Units)
    | ExecExternal(cmd: Units)
    | SendPathsToWindow
    | CheckStartUrl

  /** The locals `toSend` and `startUrl` of `readClients`, and the effects so far. */
  datatype Batch = Batch(toSend: seq<Units>, startUrl: Units, effects: seq<Effect>)

  const EmptyBatch := Batch([], [], [])

  /** The data written back to clients, in order. */
  function Replies(effects: seq<Effect>): seq<Units>
  {
    if effects == [] then []
    else (if effects[0].Write? then [effects[0].data] else []) + Replies(effects[1..])
  }

  lemma {:induction false} RepliesAppend(a: seq<Effect>, b: seq<Effect>)
    ensures Replies(a + b) == Replies(a) + Replies(b)
    decreases |a|
  {
    if a == [] {
      assert a + b == b;
    } else {
      assert (a + b)[1..] == a[1..] + b;
      RepliesAppend(a[1..], b);
    }
  }

  /** The command lines passed to `execExternal`, in order. */
  function Execs(effects: seq<Effect>): seq<Units>
  {
    if effects == [] then []
    else (if effects[0].ExecExternal? then [effects[0].cmd] else []) + Execs(effects[1..])
  }

  lemma {:induction false} ExecsAppend(a: seq<Effect>, b: seq<Effect>)
    ensures Execs(a + b) == Execs(a) + Execs(b)
    decreases |a|
  {
    if a == [] {
      assert a + b == b;
    } else {
      assert (a + b)[1..] == a[1..] + b;
      ExecsAppend(a[1..], b);
    }
  }

  lemma WriteReplies(client: nat, data: Units)
    ensures Replies([Write(client, data)]) == [data]
  {
    assert [Write(client, data)][1..] == [];
  }

  /** Whether an `OPEN:` needs the window brought forward: always when a start
      URL was already pending, else as the URL policy says. */
  function OpenActivates(ctx: Context, url: Units): bool
  {
    ctx.globals.startUrl != [] || ctx.requiresActivate(url)
  }

  /** The parsing loop itself only writes and executes. */
  predicate ParseEffect(e: Effect)
  {
    e.Write? || e.ExecExternal?
  }

  /** The batch invariant: nothing is collected into a slot that was already
      taken, a captured URL fits the limit, and only parse effects occur. */
  predicate Admissible(ctx: Context, b: Batch)
  {
    && (forall k :: 0 <= k < |b.effects| ==> ParseEffect(b.effects[k]))
    && (ctx.globals.sendPaths != [] ==> b.toSend == [])
    && (ctx.globals.startUrl != [] ==> b.startUrl == [])
    && |b.startUrl| <= MaxStartUrlLength
  }

  /** Every write among `effects` goes to `client`. */
  predicate WritesOnlyTo(effects: seq<Effect>, client: nat)
  {
    forall k :: 0 <= k < |effects| && effects[k].Write? ==> effects[k].client == client
  }

  /** Effects appended after `prefix` are exactly `extra`. */
  lemma WritesOnlyToAppend(prefix: seq<Effect>, extra: seq<Effect>, client: nat)
    requires WritesOnlyTo(extra, client)
    ensures WritesOnlyTo((prefix + extra)[|prefix|..], client)
  {
    assert (prefix + extra)[|prefix|..] == extra;
  }

  /** Two runs of effects that each write only to `client`, one after the other. */
  lemma WritesOnlyToTrans(a: seq<Effect>, b: seq<Effect>, c: seq<Effect>, client: nat)
    requires |a| <= |b| && b[..|a|] == a && |b| <= |c| && c[..|b|] == b
    requires WritesOnlyTo(b[|a|..], client) && WritesOnlyTo(c[|b|..], client)
    ensures WritesOnlyTo(c[|a|..], client)
  {
    forall k | 0 <= k < |c[|a|..]| && c[|a|..][k].Write?
      ensures c[|a|..][k].client == client
    {
      if |a| + k < |b| {
        assert c[|a|..][k] == b[|a|..][k];
      } else {
        assert c[|a|..][k] == c[|b|..][|a| + k - |b|];
      }
    }
  }

  /** Appending parse effects keeps the earlier ones as a prefix. */
  lemma AppendParseEffects(effects: seq<Effect>, extra: seq<Effect>)
    requires forall k :: 0 <= k < |effects| ==> ParseEffect(effects[k])
    requires forall k :: 0 <= k < |extra| ==> ParseEffect(extra[k])
    ensures forall k :: 0 <= k < |effects + extra| ==> ParseEffect((effects + extra)[k])
    ensures (effects + extra)[..|effects|] == effects
  {
  }

  /** `CMD:`: run the command line, then answer with this process id. */
  function HandleExec(ctx: Context, client: nat, b: Batch, arg: Units): (r: Batch)
    requires Admissible(ctx, b)
    ensures Admissible(ctx, r)
    ensures Replies(r.effects) == Replies(b.effects) + [Response(ctx.ownPid)]
    ensures r.toSend == b.toSend && r.startUrl == b.startUrl
    ensures |b.effects| <= |r.effects| && r.effects[..|b.effects|] == b.effects
    ensures ExecExternal(arg) in r.effects[|b.effects|..]
    ensures Execs(r.effects) == Execs(b.effects) + [arg]
    ensures WritesOnlyTo(r.effects[|b.effects|..], client)
  {
    var extra := ExecEffects(client, arg, ctx.ownPid);
    RepliesAppend(b.effects, extra);
    ExecsAppend(b.effects, extra);
    AppendParseEffects(b.effects, extra);
    WritesOnlyToAppend(b.effects, extra, client);
    assert (b.effects + extra)[|b.effects|..] == extra;
    b.(effects := b.effects + extra)
  }

  /** What a `CMD:` emits: one `execExternal` of its argument, then the reply. */
  function ExecEffects(client: nat, arg: Units, pid: nat): (e: seq<Effect>)
    ensures forall k :: 0 <= k < |e| ==> ParseEffect(e[k])
    ensures Replies(e) == [Response(pid)]
    ensures Execs(e) == [arg]
    ensures ExecExternal(arg) in e
    ensures WritesOnlyTo(e, client)
  {
    var e := [ExecExternal(arg), Write(client, Response(pid))];
    assert e[1..] == [Write(client, Response(pid))] && e[1..][1..] == [];
    WriteReplies(client, Response(pid));
    assert Execs(e[1..]) == [] + Execs(e[1..][1..]);
    e
  }

  /** `OPEN:`: capture the URL if none is pending, bring the window forward
      when needed, and answer with this process id exactly then. */
  function HandleOpen(ctx: Context, client: nat, b: Batch, p: Units): (r: Batch)
    requires Admissible(ctx, b)
    ensures Admissible(ctx, r)
    ensures Replies(r.effects) == Replies(b.effects)
      + [Response(if OpenActivates(ctx, r.startUrl) then ctx.ownPid else EmptyPid)]
    ensures r.toSend == b.toSend
    ensures ctx.globals.startUrl == [] ==> r.startUrl == Take(Unescape(p), MaxStartUrlLength)
    ensures ctx.globals.startUrl != [] ==> r.startUrl == b.startUrl
    ensures |b.effects| <= |r.effects| && r.effects[..|b.effects|] == b.effects
    ensures ExecExternal(Show) in r.effects[|b.effects|..] <==> OpenActivates(ctx, r.startUrl)
    ensures Execs(r.effects) == Execs(b.effects) + (if OpenActivates(ctx, r.startUrl) then [Show] else [])
    ensures WritesOnlyTo(r.effects[|b.effects|..], client)
  {
    var url := if ctx.globals.startUrl == [] then Take(Unescape(p), MaxStartUrlLength) else b.startUrl;
    var activate := OpenActivates(ctx, url);
    var extra := OpenEffects(client, activate, if activate then ctx.ownPid else EmptyPid);
    RepliesAppend(b.effects, extra);
    ExecsAppend(b.effects, extra);
    AppendParseEffects(b.effects, extra);
    WritesOnlyToAppend(b.effects, extra, client);
    assert (b.effects + extra)[|b.effects|..] == extra;
    b.(startUrl := url, effects := b.effects + extra)
  }

  /** What an `OPEN:` emits: the "show" command when it activates, then the reply. */
  function OpenEffects(client: nat, activate: bool, pid: nat): (e: seq<Effect>)
    ensures forall k :: 0 <= k < |e| ==> ParseEffect(e[k])
    ensures Replies(e) == [Response(pid)]
    ensures ExecExternal(Show) in e <==> activate
    ensures Execs(e) == (if activate then [Show] else [])
    ensures WritesOnlyTo(e, client)
  {
    var shown: seq<Effect> := if activate then [ExecExternal(Show)] else [];
    RepliesAppend(shown, [Write(client, Response(pid))]);
    ExecsAppend(shown, [Write(client, Response(pid))]);
    assert [Write(client, Response(pid))][1..] == [];
    assert activate ==> shown[1..] == [];
    WriteReplies(client, Response(pid));
    assert activate ==> (shown + [Write(client, Response(pid))])[0] == ExecExternal(Show);
    shown + [Write(client, Response(pid))]
  }

  /** One frame of `readClients`. */
  function HandleCommand(ctx: Context, client: nat, b: Batch, cmd: Command): (r: Batch)
    requires Admissible(ctx, b)
    ensures Admissible(ctx, r)
    ensures cmd.Exec? ==> Replies(r.effects) == Replies(b.effects) + [Response(ctx.ownPid)]
    ensures cmd.Open? ==>
      Replies(r.effects) == Replies(b.effects)
        + [Response(if OpenActivates(ctx, r.startUrl) then ctx.ownPid else EmptyPid)]
    ensures cmd.Send? || cmd.Unknown? ==> Replies(r.effects) == Replies(b.effects)
    ensures cmd.Send? && ctx.globals.sendPaths == [] ==> r.toSend == b.toSend + [Unescape(cmd.payload)]
    ensures !(cmd.Send? && ctx.globals.sendPaths == []) ==> r.toSend == b.toSend
    ensures cmd.Open? && ctx.globals.startUrl == [] ==> r.startUrl == Take(Unescape(cmd.payload), MaxStartUrlLength)
    ensures !(cmd.Open? && ctx.globals.startUrl == []) ==> r.startUrl == b.startUrl
    ensures |b.effects| <= |r.effects| && r.effects[..|b.effects|] == b.effects
    ensures cmd.Exec? ==> ExecExternal(cmd.arg) in r.effects[|b.effects|..]
    ensures cmd.Exec? ==> Execs(r.effects) == Execs(b.effects) + [cmd.arg]
    ensures cmd.Open? ==>
      Execs(r.effects) == Execs(b.effects) + (if OpenActivates(ctx, r.startUrl) then [Show] else [])
    ensures cmd.Open? ==> (ExecExternal(Show) in r.effects[|b.effects|..] <==> OpenActivates(ctx, r.startUrl))
    ensures cmd.Send? || cmd.Unknown? ==> r.effects == b.effects
    ensures WritesOnlyTo(r.effects[|b.effects|..], client)
  {
    match cmd
    case Exec(arg) => HandleExec(ctx, client, b, arg)
    case Send(p) =>
      assert b.effects[..|b.effects|] == b.effects;
      if ctx.globals.sendPaths == [] then b.(toSend := b.toSend + [Unescape(p)]) else b
    case Open(p) => HandleOpen(ctx, client, b, p)
    case Unknown(_) =>
      assert b.effects[..|b.effects|] == b.effects;
      b
  }

  /** The frames of one client, in stream order: effects and queued paths
      only grow at the end, and each frame writes at most one reply. */
  function HandleFrames(ctx: Context, client: nat, b: Batch, frames: seq<Units>): (r: Batch)
    requires Admissible(ctx, b)
    ensures Admissible(ctx, r)
    ensures |b.effects| <= |r.effects| && r.effects[..|b.effects|] == b.effects
    ensures |b.toSend| <= |r.toSend| && r.toSend[..|b.toSend|] == b.toSend
    ensures |Replies(r.effects)| <= |Replies(b.effects)| + |frames|
    ensures WritesOnlyTo(r.effects[|b.effects|..], client)
    decreases |frames|
  {
    if frames == [] then b
    else
      var b1 := HandleCommand(ctx, client, b, Classify(frames[0]));
      var r := HandleFrames(ctx, client, b1, frames[1..]);
      PrefixTrans(b.effects, b1.effects, r.effects);
      PrefixTrans(b.toSend, b1.toSend, r.toSend);
      WritesOnlyToTrans(b.effects, b1.effects, r.effects, client);
      r
  }

  lemma PrefixTrans<T>(a: seq<T>, b: seq<T>, c: seq<T>)
    requires |a| <= |b| && b[..|a|] == a
    requires |b| <= |c| && c[..|b|] == b
    ensures |a| <= |c| && c[..|a|] == a
  {
    assert c[..|a|] == c[..|b|][..|a|];
  }

  lemma {:induction false} HandleFramesAppend(ctx: Context, client: nat, b: Batch, f1: seq<Units>, f2: seq<Units>)
    requires Admissible(ctx, b)
    ensures HandleFrames(ctx, client, b, f1 + f2)
      == HandleFrames(ctx, client, HandleFrames(ctx, client, b, f1), f2)
    decreases |f1|
  {
    if f1 == [] {
      assert f1 + f2 == f2;
    } else {
      assert (f1 + f2)[0] == f1[0];
      assert (f1 + f2)[1..] == f1[1..] + f2;
      HandleFramesAppend(ctx, client, HandleCommand(ctx, client, b, Classify(f1[0])), f1[1..], f2);
    }
  }

  /** One client's part of `readClients`: append what is ready, handle every
      complete frame, keep the bytes after the last ';'. */
  function ReadClient(ctx: Context, c: LocalClient, b: Batch): (r: (LocalClient, Batch))
    requires Admissible(ctx, b)
    ensures Admissible(ctx, r.1)
    ensures r.0 == c.(incoming := [], buffer := r.0.buffer)
    ensures var buffer := c.buffer + c.incoming;
      && Semicolon !in r.0.buffer
      && |r.0.buffer| <= |buffer|
      && buffer[|buffer| - |r.0.buffer|..] == r.0.buffer
      && (|r.0.buffer| < |buffer| ==> buffer[|buffer| - |r.0.buffer| - 1] == Semicolon)
    ensures Semicolon !in c.buffer + c.incoming ==> r.0.buffer == c.buffer + c.incoming && r.1 == b
    ensures |b.effects| <= |r.1.effects| && r.1.effects[..|b.effects|] == b.effects
    ensures |b.toSend| <= |r.1.toSend| && r.1.toSend[..|b.toSend|] == b.toSend
    ensures WritesOnlyTo(r.1.effects[|b.effects|..], c.id)
  {
    var buffer := c.buffer + c.incoming;
    var (frames, tail) := SplitFrames(buffer);
    TailFollowsLastSemicolon(buffer);
    (c.(incoming := [], buffer := tail), HandleFrames(ctx, c.id, b, frames))
  }

  /** Read against any framing of the buffer: whenever the buffer is some
      ';'-free frames, each closed by ';', followed by a ';'-free tail, the
      client handles exactly those frames, in stream order, and keeps that tail. */
  lemma ReadClientFrames(ctx: Context, c: LocalClient, b: Batch, frames: seq<Units>, tail: Units)
    requires Admissible(ctx, b)
    requires SemicolonFree(frames) && Semicolon !in tail
    requires c.buffer + c.incoming == Join(frames) + tail
    ensures ReadClient(ctx, c, b) == (c.(incoming := [], buffer := tail), HandleFrames(ctx, c.id, b, frames))
  {
    SplitJoin(frames, tail);
  }

  /** The tail kept by `SplitFrames` is the suffix after the last ';'. */
  lemma TailFollowsLastSemicolon(s: Units)
    ensures var tail := SplitFrames(s).1;
      && |tail| <= |s|
      && s[|s| - |tail|..] == tail
      && (|tail| < |s| ==> s[|s| - |tail| - 1] == Semicolon)
  {
    var (frames, tail) := SplitFrames(s);
    if frames != [] {
      var j := Join(frames);
      JoinEndsWithSemicolon(frames);
      assert s == j + tail;
      assert s[|s| - |tail| - 1] == j[|j| - 1];
    }
  }

  lemma {:induction false} JoinEndsWithSemicolon(frames: seq<Units>)
    requires frames != []
    ensures |Join(frames)| > 0 && Last(Join(frames)) == Semicolon
    decreases |frames|
  {
    if frames[1..] != [] {
      JoinEndsWithSemicolon(frames[1..]);
    }
  }

  /** A client after `readClients` has parsed it: nothing pending, and only
      the bytes after its last ';' kept in the buffer. */
  function Drained(c: LocalClient): LocalClient
  {
    c.(incoming := [], buffer := SplitFrames(c.buffer + c.incoming).1)
  }

  /** The loop of `readClients` over every accepted client: each client, in
      place, keeps only its unframed tail, and the batch only grows. */
  function ReadAll(ctx: Context, clients: seq<LocalClient>, b: Batch): (r: (seq<LocalClient>, Batch))
    requires Admissible(ctx, b)
    ensures Admissible(ctx, r.1)
    ensures |r.0| == |clients|
    ensures forall i :: 0 <= i < |clients| ==> r.0[i] == Drained(clients[i])
    ensures forall i :: 0 <= i < |clients| ==> r.0[i].id == clients[i].id && r.0[i].connected == clients[i].connected
    ensures |b.effects| <= |r.1.effects| && r.1.effects[..|b.effects|] == b.effects
    ensures |b.toSend| <= |r.1.toSend| && r.1.toSend[..|b.toSend|] == b.toSend
    decreases |clients|
  {
    if clients == [] then ([], b)
    else
      var (c, b1) := ReadClient(ctx, clients[0], b);
      var (cs, b2) := ReadAll(ctx, clients[1..], b1);
      ConsDrained(c, cs, clients);
      PrefixTrans(b.effects, b1.effects, b2.effects);
      PrefixTrans(b.toSend, b1.toSend, b2.toSend);
      ([c] + cs, b2)
  }

  /** Consing the first client, drained, onto the rest, drained, drains every client. */
  lemma ConsDrained(c: LocalClient, cs: seq<LocalClient>, clients: seq<LocalClient>)
    requires clients != [] && |cs| == |clients| - 1
    requires c == Drained(clients[0])
    requires forall i :: 0 <= i < |cs| ==> cs[i] == Drained(clients[1..][i])
    ensures forall i :: 0 <= i < |clients| ==> ([c] + cs)[i] == Drained(clients[i])
  {
    forall i | 0 <= i < |clients|
      ensures ([c] + cs)[i] == Drained(clients[i])
    {
      if i > 0 {
        assert ([c] + cs)[i] == cs[i - 1];
        assert clients[1..][i - 1] == clients[i];
      }
    }
  }

  datatype ServerStep = ServerStep(clients: seq<LocalClient>, globals: Globals, effects: seq<Effect>)

  /** The notifications `readClients` ends with. */
  function Notifications(pathsToWindow: bool, hasApplication: bool): seq<Effect>
  {
    (if pathsToWindow then [SendPathsToWindow] else []) + (if hasApplication then [CheckStartUrl] else [])
  }

  /** Parse effects never look like notifications, so each notification is
      present exactly when it was issued. */
  lemma NotificationsAfterParse(effects: seq<Effect>, pathsToWindow: bool, hasApplication: bool)
    requires forall k :: 0 <= k < |effects| ==> ParseEffect(effects[k])
    ensures SendPathsToWindow in effects + Notifications(pathsToWindow, hasApplication) <==> pathsToWindow
    ensures CheckStartUrl in effects + Notifications(pathsToWindow, hasApplication) <==> hasApplication
  {
    var all := effects + Notifications(pathsToWindow, hasApplication);
    assert SendPathsToWindow !in effects && CheckStartUrl !in effects;
    if pathsToWindow {
      assert all[|effects|] == SendPathsToWindow;
    }
    if hasApplication {
      assert all[|all| - 1] == CheckStartUrl;
    }
  }

  lemma PrefixOfAppend(a: seq<Units>, b: seq<Units>)
    ensures (a + b)[..|a|] == a
  {
  }

  /** `readClients`: parse every client, then publish the collected send paths
      and start URL and notify the window and the application if they exist. */
  function ReadClients(ctx: Context, clients: seq<LocalClient>, hasWindow: bool, hasApplication: bool): (r: ServerStep)
    ensures |r.clients| == |clients|
    ensures forall i :: 0 <= i < |clients| ==> r.clients[i] == Drained(clients[i])
    ensures |ctx.globals.sendPaths| <= |r.globals.sendPaths|
    ensures r.globals.sendPaths[..|ctx.globals.sendPaths|] == ctx.globals.sendPaths
    ensures ctx.globals.sendPaths != [] ==> r.globals.sendPaths == ctx.globals.sendPaths
    ensures ctx.globals.startUrl != [] ==> r.globals.startUrl == ctx.globals.startUrl
    ensures r.globals.startUrl == ctx.globals.startUrl || |r.globals.startUrl| <= MaxStartUrlLength
    ensures (SendPathsToWindow in r.effects) <==> r.globals.sendPaths != [] && hasWindow
    ensures (CheckStartUrl in r.effects) <==> hasApplication
  {
    var g := ctx.globals;
    var (cs, b) := ReadAll(ctx, clients, EmptyBatch);
    var paths := if b.toSend != [] then g.sendPaths + b.toSend else g.sendPaths;
    var url := if b.startUrl != [] then b.startUrl else g.startUrl;
    PrefixOfAppend(g.sendPaths, b.toSend);
    NotificationsAfterParse(b.effects, paths != [] && hasWindow, hasApplication);
    ServerStep(cs, Globals(paths, url), b.effects + Notifications(paths != [] && hasWindow, hasApplication))
  }

  /** `newInstanceConnected`: every pending connection joins the client
      list, connected and with an empty buffer, after the existing ones. */
  function AcceptClients(clients: seq<LocalClient>, accepted: seq<nat>): (r: seq<LocalClient>)
    ensures |r| == |clients| + |accepted|
    ensures r[..|clients|] == clients
    ensures forall i :: 0 <= i < |accepted| ==>
      r[|clients| + i] == LocalClient(accepted[i], true, [], [])
    decreases |accepted|
  {
    if accepted == [] then clients
    else AcceptClients(clients + [LocalClient(accepted[0], true, [], [])], accepted[1..])
  }

  /** `removeClients`: keep the clients still connected, in order. */
  function RemoveClients(clients: seq<LocalClient>): (r: seq<LocalClient>)
    ensures forall i :: 0 <= i < |r| ==> r[i].connected
    ensures forall c :: c in r <==> c in clients && c.connected
    ensures |r| <= |clients|
  {
    if clients == [] then []
    else (if clients[0].connected then [clients[0]] else []) + RemoveClients(clients[1..])
  }

  /** Removal works piecewise, so it keeps the relative order of survivors. */
  lemma {:induction false} RemoveClientsAppend(a: seq<LocalClient>, b: seq<LocalClient>)
    ensures RemoveClients(a + b) == RemoveClients(a) + RemoveClients(b)
    decreases |a|
  {
    if a == [] {
      assert a + b == b;
    } else {
      assert (a + b)[1..] == a[1..] + b;
      RemoveClientsAppend(a[1..], b);
    }
  }

  /** A client that is still connected is never removed, so a second pass
      removes nothing. */
  lemma {:induction false} RemoveClientsIdempotent(clients: seq<LocalClient>)
    ensures RemoveClients(RemoveClients(clients)) == RemoveClients(clients)
    decreases |clients|
  {
    if clients != [] {
      RemoveClientsIdempotent(clients[1..]);
      RemoveClientsAppend(if clients[0].connected then [clients[0]] else [], RemoveClients(clients[1..]));
    }
  }

  // ---------------------------------------------------------------------
  // Client side: socketConnected, socketReading, socketDisconnected

  /** The `SEND:` frames of the secondary, one per path. */
  function SendFrames(paths: seq<Units>): seq<Units>
  {
    if paths == [] then [] else [SendTag + Escape(paths[0])] + SendFrames(paths[1..])
  }

  /** The frames the secondary sends: its paths, then its URL or `CMD:show`. */
  function ClientFrames(paths: seq<Units>, startUrl: Units): seq<Units>
  {
    SendFrames(paths) + [if startUrl != [] then OpenTag + Escape(startUrl) else CmdTag + Show]
  }

  /** `socketConnected`'s command string. Every unit is below 128, so the
      source's `toLatin1` loses nothing. */
  function Commands(paths: seq<Units>, startUrl: Units): (commands: Units)
    ensures forall k :: 0 <= k < |commands| ==> commands[k] < 128
  {
    var sends := SendCommands(paths);
    sends + (if startUrl != [] then OpenTag + Escape(startUrl) + [Semicolon] else CmdTag + Show + [Semicolon])
  }

  function SendCommands(paths: seq<Units>): (r: Units)
    ensures forall k :: 0 <= k < |r| ==> r[k] < 128
  {
    if paths == [] then [] else SendTag + Escape(paths[0]) + [Semicolon] + SendCommands(paths[1..])
  }

  lemma {:induction false} SendCommandsAreFrames(paths: seq<Units>)
    ensures SendCommands(paths) == Join(SendFrames(paths))
    decreases |paths|
  {
    if paths != [] {
      SendCommandsAreFrames(paths[1..]);
    }
  }

  lemma CommandsAreFrames(paths: seq<Units>, startUrl: Units)
    ensures Commands(paths, startUrl) == Join(ClientFrames(paths, startUrl))
  {
    var last := if startUrl != [] then OpenTag + Escape(startUrl) else CmdTag + Show;
    SendCommandsAreFrames(paths);
    JoinAppend(SendFrames(paths), [last]);
    assert Join([last]) == last + [Semicolon] + Join([]);
  }

  /** The secondary's state: whether it has connected, and the reply bytes so far. */
  datatype Secondary = Secondary(secondInstance: bool, readData: Units)

  datatype ClientAction = WriteCommands(data: Units) | ActivateProcess(pid: nat) | Quit

  /** `socketConnected`: become the secondary and write the command string. */
  function SocketConnected(st: Secondary, paths: seq<Units>, startUrl: Units): (r: (Secondary, ClientAction))
    ensures r.0.secondInstance && r.0.readData == st.readData
    ensures r.1.WriteCommands? && forall k :: 0 <= k < |r.1.data| ==> r.1.data[k] < 128
    ensures r.1 == WriteCommands(Join(ClientFrames(paths, startUrl)))
  {
    CommandsAreFrames(paths, startUrl);
    (st.(secondInstance := true), WriteCommands(Commands(paths, startUrl)))
  }

  /** Digits then ';' at the front of a string. */
  predicate DigitsThenSemicolon(t: Units)
    decreases |t|
  {
    |t| >= 2 && IsDigit(t[0]) && (t[1] == Semicolon || DigitsThenSemicolon(t[1..]))
  }

  /** The regular expression `RES:(\d+);` matches somewhere in `s`. */
  predicate ContainsResponse(s: Units)
    decreases |s|
  {
    |s| >= 6 && ((s[..4] == ResTag && DigitsThenSemicolon(s[4..])) || ContainsResponse(s[1..]))
  }

  /** `mid(4, length - 5).toULongLong()`: right only when the buffer is a single reply. */
  function ExtractPid(s: Units): (pid: nat)
    requires |s| >= 5
    ensures pid < ULongLongLimit
    ensures forall n: nat :: n < ULongLongLimit && s == Response(n) ==> pid == n
    ensures pid != EmptyPid ==> AllDigits(s[4..|s| - 1]) && DigitsValue(s[4..|s| - 1]) == pid
  {
    ReadsResponse(s);
    ToULongLong(s[4..|s| - 1])
  }

  /** The digits between `RES:` and the closing ';' of a reply are the pid's. */
  lemma ReadsResponse(s: Units)
    requires |s| >= 5
    ensures forall n: nat :: n < ULongLongLimit && s == Response(n) ==> ToULongLong(s[4..|s| - 1]) == n
  {
    forall n: nat | n < ULongLongLimit && s == Response(n)
      ensures ToULongLong(s[4..|s| - 1]) == n
    {
      assert s[4..|s| - 1] == Decimal(n);
      DecimalValue(n);
    }
  }

  /** `socketReading`: accumulate, and on the first complete reply activate
      the reported pid unless it is 0, then quit. */
  function SocketReading(st: Secondary, connected: bool, incoming: Units): (r: (Secondary, seq<ClientAction>))
    ensures !connected ==> r == (st, [])
    ensures connected ==> r.0.readData == st.readData + incoming
    ensures r.1 != [] <==> connected && ContainsResponse(st.readData + incoming)
    ensures r.1 != [] ==> Last(r.1) == Quit && |r.1| <= 2
    ensures forall a :: a in r.1 ==> a.ActivateProcess? || a.Quit?
    ensures connected && ContainsResponse(st.readData + incoming) ==>
      forall p :: ActivateProcess(p) in r.1 <==>
        p == ExtractPid(st.readData + incoming) && p != EmptyPid
  {
    if !connected then (st, [])
    else
      var data := st.readData + incoming;
      var st' := st.(readData := data);
      if ContainsResponse(data) then
        var pid := ExtractPid(data);
        (st', (if pid != EmptyPid then [ActivateProcess(pid)] else []) + [Quit])
      else (st', [])
  }

  /** `socketDisconnected`: a secondary that loses the primary quits. */
  function SocketDisconnected(st: Secondary): (r: seq<ClientAction>)
    ensures r != [] <==> st.secondInstance
    ensures forall a :: a in r ==> a == Quit
  {
    if st.secondInstance then [Quit] else []
  }

  // ---------------------------------------------------------------------
  // Properties connecting both sides

  lemma {:induction false} DigitsThenSemicolonOfDecimal(d: Units)
    requires |d| > 0 && AllDigits(d)
    ensures DigitsThenSemicolon(d + [Semicolon])
    decreases |d|
  {
    if |d| > 1 {
      assert (d + [Semicolon])[1..] == d[1..] + [Semicolon];
      DigitsThenSemicolonOfDecimal(d[1..]);
    }
  }

  /** The secondary reads back exactly the pid the primary wrote. */
  lemma ResponseRoundTrip(pid: nat)
    requires pid < ULongLongLimit
    ensures ContainsResponse(Response(pid))
    ensures ExtractPid(Response(pid)) == pid
  {
    var r := Response(pid);
    assert r[..4] == ResTag;
    assert r[4..] == Decimal(pid) + [Semicolon];
    DigitsThenSemicolonOfDecimal(Decimal(pid));
    assert r[4..|r| - 1] == Decimal(pid);
    DecimalValue(pid);
  }

  /** A reply that has not yet arrived in full triggers nothing. */
  lemma {:induction false} NoSemicolonNoResponse(s: Units)
    requires Semicolon !in s
    ensures !ContainsResponse(s)
    decreases |s|
  {
    if |s| >= 6 {
      NoSemicolonNoResponseTail(s[4..]);
      NoSemicolonNoResponse(s[1..]);
    }
  }

  lemma {:induction false} NoSemicolonNoResponseTail(t: Units)
    requires Semicolon !in t
    ensures !DigitsThenSemicolon(t)
    decreases |t|
  {
    if |t| >= 2 {
      NoSemicolonNoResponseTail(t[1..]);
    }
  }

  /** A connected secondary whose reply bytes so far complete the primary's
      reply, in one read or split across several, activates that pid (unless
      it is the empty pid) and quits. */
  lemma SecondaryHandlesReply(st: Secondary, incoming: Units, pid: nat)
    requires st.readData + incoming == Response(pid) && pid < ULongLongLimit
    ensures SocketReading(st, true, incoming).1
      == (if pid != EmptyPid then [ActivateProcess(pid)] else []) + [Quit]
  {
    ResponseRoundTrip(pid);
  }

  /** Two replies in one buffer are misread as pid 0: the pid extraction
      assumes the buffer holds a single reply. */
  lemma TwoRepliesReadAsEmptyPid()
    ensures ExtractPid(Response(1) + Response(2)) == 0
  {
    var s := Response(1) + Response(2);
    assert s[4..|s| - 1][1] == Semicolon;
    assert !AllDigits(s[4..|s| - 1]);
  }

  lemma {:induction false} SendFramesFree(paths: seq<Units>)
    requires forall i :: 0 <= i < |paths| ==> Semicolon !in paths[i]
    ensures SemicolonFree(SendFrames(paths))
    decreases |paths|
  {
    if paths != [] {
      EscapeKeepsSemicolons(paths[0]);
      SendFramesFree(paths[1..]);
    }
  }

  /** One `SEND:` frame of a secondary queues its path, decoded, exactly when
      no send paths were pending, and writes nothing. */
  lemma HandleSendFrame(ctx: Context, client: nat, b: Batch, path: Units)
    requires Admissible(ctx, b)
    ensures var r := HandleCommand(ctx, client, b, Classify(SendTag + Escape(path)));
      && r.toSend == b.toSend + (if ctx.globals.sendPaths == [] then [path] else [])
      && r.startUrl == b.startUrl
      && r.effects == b.effects
  {
    ClassifyRender(Send(Escape(path)));
    RoundTrip(path);
  }

  /** The `SEND:` frames of a secondary queue its paths, decoded and in order,
      exactly when no send paths were pending; they write nothing. */
  lemma {:induction false} HandleSendFrames(ctx: Context, client: nat, b: Batch, paths: seq<Units>)
    requires Admissible(ctx, b)
    ensures var r := HandleFrames(ctx, client, b, SendFrames(paths));
      && r.toSend == b.toSend + (if ctx.globals.sendPaths == [] then paths else [])
      && r.startUrl == b.startUrl
      && r.effects == b.effects
    decreases |paths|
  {
    if paths == [] {
      assert b.toSend + [] == b.toSend;
    } else {
      var frames := SendFrames(paths);
      var b1 := HandleCommand(ctx, client, b, Classify(SendTag + Escape(paths[0])));
      HandleSendFrame(ctx, client, b, paths[0]);
      HandleFramesCons(ctx, client, b, SendTag + Escape(paths[0]), SendFrames(paths[1..]));
      HandleSendFrames(ctx, client, b1, paths[1..]);
      ConsAppend(b.toSend, paths, ctx.globals.sendPaths == []);
    }
  }

  lemma HandleFramesCons(ctx: Context, client: nat, b: Batch, f: Units, rest: seq<Units>)
    requires Admissible(ctx, b)
    ensures HandleFrames(ctx, client, b, [f] + rest)
      == HandleFrames(ctx, client, HandleCommand(ctx, client, b, Classify(f)), rest)
  {
    assert ([f] + rest)[0] == f && ([f] + rest)[1..] == rest;
  }

  lemma ConsAppend(front: seq<Units>, paths: seq<Units>, keep: bool)
    requires paths != []
    ensures (front + (if keep then [paths[0]] else [])) + (if keep then paths[1..] else [])
      == front + (if keep then paths else [])
  {
    if keep {
      assert [paths[0]] + paths[1..] == paths;
      assert (front + [paths[0]]) + paths[1..] == front + ([paths[0]] + paths[1..]);
    }
  }

  /** The primary splits a secondary's command string back into exactly its
      frames, with nothing left over, when the paths and URL hold no ';'. */
  lemma CommandsSplitIntoFrames(paths: seq<Units>, startUrl: Units)
    requires forall i :: 0 <= i < |paths| ==> Semicolon !in paths[i]
    requires Semicolon !in startUrl
    ensures SplitFrames(Commands(paths, startUrl)) == (ClientFrames(paths, startUrl), [])
  {
    var frames := ClientFrames(paths, startUrl);
    SendFramesFree(paths);
    EscapeKeepsSemicolons(startUrl);
    assert SemicolonFree(frames) by {
      forall i | 0 <= i < |frames|
        ensures Semicolon !in frames[i]
      {
        if i < |SendFrames(paths)| {
          assert frames[i] == SendFrames(paths)[i];
        }
      }
    }
    CommandsAreFrames(paths, startUrl);
    assert Join(frames) + [] == Join(frames);
    SplitJoin(frames, []);
  }

  /** The closing frame of a secondary writes exactly one reply: the own pid
      for `CMD:show`, and for `OPEN:` the own pid or the empty pid. A URL is
      captured, cut to the limit, only when none was pending. */
  lemma HandleClosingFrame(ctx: Context, client: nat, b: Batch, startUrl: Units)
    requires Admissible(ctx, b)
    ensures var last := if startUrl != [] then OpenTag + Escape(startUrl) else CmdTag + Show;
      var r := HandleCommand(ctx, client, b, Classify(last));
      && r.toSend == b.toSend
      && (startUrl != [] && ctx.globals.startUrl == [] ==> r.startUrl == Take(startUrl, MaxStartUrlLength))
      && (startUrl == [] ==> r.startUrl == b.startUrl)
      && (startUrl == [] ==> Replies(r.effects) == Replies(b.effects) + [Response(ctx.ownPid)])
      && (startUrl != [] ==>
            || Replies(r.effects) == Replies(b.effects) + [Response(ctx.ownPid)]
            || Replies(r.effects) == Replies(b.effects) + [Response(EmptyPid)])
  {
    if startUrl != [] {
      ClassifyRender(Open(Escape(startUrl)));
      RoundTrip(startUrl);
    } else {
      ClassifyRender(Exec(Show));
    }
  }

  lemma HandleSingleFrame(ctx: Context, client: nat, b: Batch, f: Units)
    requires Admissible(ctx, b)
    ensures HandleFrames(ctx, client, b, [f]) == HandleCommand(ctx, client, b, Classify(f))
  {
    assert [f][1..] == [];
  }

  /** The frames of a secondary: the paths are queued when none were
      pending, the URL captured when none was pending, one reply written. */
  lemma HandleClientFrames(ctx: Context, client: nat, paths: seq<Units>, startUrl: Units)
    ensures var r := HandleFrames(ctx, client, EmptyBatch, ClientFrames(paths, startUrl));
      && r.toSend == (if ctx.globals.sendPaths == [] then paths else [])
      && (ctx.globals.startUrl == [] ==> r.startUrl == Take(startUrl, MaxStartUrlLength))
      && |Replies(r.effects)| == 1
      && (startUrl == [] ==> Replies(r.effects) == [Response(ctx.ownPid)])
  {
    var last := if startUrl != [] then OpenTag + Escape(startUrl) else CmdTag + Show;
    HandleFramesAppend(ctx, client, EmptyBatch, SendFrames(paths), [last]);
    HandleSendFrames(ctx, client, EmptyBatch, paths);
    var b1 := HandleFrames(ctx, client, EmptyBatch, SendFrames(paths));
    assert Replies(b1.effects) == [];
    HandleClosingFrame(ctx, client, b1, startUrl);
    HandleSingleFrame(ctx, client, b1, last);
  }

  /** End to end: the primary handles a secondary's command string by queueing
      the paths when none were pending, capturing the (cut) URL when none was
      pending, and writing exactly one reply. Requires ';'-free paths and URL,
      since ';' is not escaped. */
  lemma PrimaryReadsSecondary(ctx: Context, client: nat, paths: seq<Units>, startUrl: Units)
    requires forall i :: 0 <= i < |paths| ==> Semicolon !in paths[i]
    requires Semicolon !in startUrl
    ensures SplitFrames(Commands(paths, startUrl)) == (ClientFrames(paths, startUrl), [])
    ensures var r := HandleFrames(ctx, client, EmptyBatch, ClientFrames(paths, startUrl));
      && r.toSend == (if ctx.globals.sendPaths == [] then paths else [])
      && (startUrl != [] && ctx.globals.startUrl == [] ==> r.startUrl == Take(startUrl, MaxStartUrlLength))
      && |Replies(r.effects)| == 1
      && (startUrl == [] ==> Replies(r.effects) == [Response(ctx.ownPid)])
  {
    CommandsSplitIntoFrames(paths, startUrl);
    HandleClientFrames(ctx, client, paths, startUrl);
  }

  /** The notifications write nothing to any client. */
  lemma NotificationsWriteNothing(pathsToWindow: bool, hasApplication: bool)
    ensures Replies(Notifications(pathsToWindow, hasApplication)) == []
    ensures Execs(Notifications(pathsToWindow, hasApplication)) == []
    ensures forall e :: e in Notifications(pathsToWindow, hasApplication) ==> e.SendPathsToWindow? || e.CheckStartUrl?
  {
    var n := Notifications(pathsToWindow, hasApplication);
    if pathsToWindow && hasApplication {
      assert n == [SendPathsToWindow, CheckStartUrl];
      assert n[1..] == [CheckStartUrl] && n[1..][1..] == [];
      assert Replies(n[1..]) == Replies(n[1..][1..]);
      assert Execs(n[1..]) == Execs(n[1..][1..]);
    } else if pathsToWindow {
      assert n == [SendPathsToWindow] && n[1..] == [];
    } else if hasApplication {
      assert n == [CheckStartUrl] && n[1..] == [];
    } else {
      assert n == [];
    }
  }

  /** `readClients` over a single client parses that client's complete frames. */
  lemma ReadAllSingle(ctx: Context, c: LocalClient, b: Batch)
    requires Admissible(ctx, b)
    ensures ReadAll(ctx, [c], b) == ([Drained(c)], HandleFrames(ctx, c.id, b, SplitFrames(c.buffer + c.incoming).0))
  {
    var (c1, b1) := ReadClient(ctx, c, b);
    assert c1 == Drained(c);
    assert b1 == HandleFrames(ctx, c.id, b, SplitFrames(c.buffer + c.incoming).0);
    assert [c][0] == c && [c][1..] == [];
    assert ReadAll(ctx, [], b1) == ([], b1);
    assert ReadAll(ctx, [c], b) == ([c1] + [], b1);
    assert [c1] + [] == [c1];
  }

  /** End to end through `readClients`: a single client whose buffer holds a
      secondary's whole command string publishes the secondary's paths when
      none were pending and its URL (cut to the limit) when none was pending,
      is left with an empty buffer, and is written exactly one reply. */
  lemma ReadClientsFromSecondary(ctx: Context, c: LocalClient, paths: seq<Units>, startUrl: Units,
                                 hasWindow: bool, hasApplication: bool)
    requires forall i :: 0 <= i < |paths| ==> Semicolon !in paths[i]
    requires Semicolon !in startUrl
    requires c.buffer + c.incoming == Commands(paths, startUrl)
    ensures var g := ctx.globals;
      var r := ReadClients(ctx, [c], hasWindow, hasApplication);
      && r.clients == [c.(incoming := [], buffer := [])]
      && r.globals.sendPaths == (if g.sendPaths == [] then paths else g.sendPaths)
      && r.globals.startUrl == (if g.startUrl == [] then Take(startUrl, MaxStartUrlLength) else g.startUrl)
      && |Replies(r.effects)| == 1
  {
    var frames := ClientFrames(paths, startUrl);
    CommandsSplitIntoFrames(paths, startUrl);
    HandleClientFrames(ctx, c.id, paths, startUrl);
    ReadClientsWholeFrames(ctx, c, frames, hasWindow, hasApplication);
    var b := HandleFrames(ctx, c.id, EmptyBatch, frames);
    var g := ctx.globals;
    if g.sendPaths == [] {
      assert g.sendPaths + b.toSend == paths;
    } else {
      assert g.sendPaths + b.toSend == g.sendPaths;
    }
  }

  /** A client whose buffer is whole frames, with no tail: it is left empty,
      and `readClients` publishes what those frames collected. */
  lemma ReadClientsWholeFrames(ctx: Context, c: LocalClient, frames: seq<Units>, hasWindow: bool, hasApplication: bool)
    requires SplitFrames(c.buffer + c.incoming) == (frames, [])
    ensures var g := ctx.globals;
      var b := HandleFrames(ctx, c.id, EmptyBatch, frames);
      var r := ReadClients(ctx, [c], hasWindow, hasApplication);
      && r.clients == [c.(incoming := [], buffer := [])]
      && r.globals == Globals(g.sendPaths + b.toSend, if b.startUrl != [] then b.startUrl else g.startUrl)
      && Replies(r.effects) == Replies(b.effects)
  {
    ReadClientsSingle(ctx, c, hasWindow, hasApplication);
  }

  /** `readClients` over one client publishes what that client's frames
      collected on top of what was pending, and adds no reply of its own. */
  lemma ReadClientsSingle(ctx: Context, c: LocalClient, hasWindow: bool, hasApplication: bool)
    ensures var g := ctx.globals;
      var b := HandleFrames(ctx, c.id, EmptyBatch, SplitFrames(c.buffer + c.incoming).0);
      var r := ReadClients(ctx, [c], hasWindow, hasApplication);
      && r.clients == [Drained(c)]
      && r.globals == Globals(g.sendPaths + b.toSend, if b.startUrl != [] then b.startUrl else g.startUrl)
      && Replies(r.effects) == Replies(b.effects)
  {
    ReadAllSingle(ctx, c, EmptyBatch);
    ReadClientsCommit(ctx, [c], hasWindow, hasApplication);
  }

  /** The commit of `readClients`: the collected paths are appended to the
      pending ones, a collected URL replaces the pending one, and the
      notifications write nothing to any client. */
  lemma ReadClientsCommit(ctx: Context, clients: seq<LocalClient>, hasWindow: bool, hasApplication: bool)
    ensures var g := ctx.globals;
      var (cs, b) := ReadAll(ctx, clients, EmptyBatch);
      var r := ReadClients(ctx, clients, hasWindow, hasApplication);
      && r.clients == cs
      && r.globals == Globals(g.sendPaths + b.toSend, if b.startUrl != [] then b.startUrl else g.startUrl)
      && Replies(r.effects) == Replies(b.effects)
  {
    var g := ctx.globals;
    var (cs, b) := ReadAll(ctx, clients, EmptyBatch);
    var paths := if b.toSend != [] then g.sendPaths + b.toSend else g.sendPaths;
    var n := Notifications(paths != [] && hasWindow, hasApplication);
    NotificationsWriteNothing(paths != [] && hasWindow, hasApplication);
    RepliesAppend(b.effects, n);
    assert g.sendPaths + [] == g.sendPaths;
    ReadClientsUnfold(ctx, clients, hasWindow, hasApplication);
  }

  /** The effects of `readClients`: those of the parse loop, in order, then
      only notifications, which run no command. */
  lemma ReadClientsEffects(ctx: Context, clients: seq<LocalClient>, hasWindow: bool, hasApplication: bool)
    ensures var b := ReadAll(ctx, clients, EmptyBatch).1;
      var r := ReadClients(ctx, clients, hasWindow, hasApplication);
      && Execs(r.effects) == Execs(b.effects)
      && |b.effects| <= |r.effects| && r.effects[..|b.effects|] == b.effects
      && forall k :: |b.effects| <= k < |r.effects| ==> r.effects[k].SendPathsToWindow? || r.effects[k].CheckStartUrl?
  {
    var g := ctx.globals;
    var b := ReadAll(ctx, clients, EmptyBatch).1;
    var paths := if b.toSend != [] then g.sendPaths + b.toSend else g.sendPaths;
    var n := Notifications(paths != [] && hasWindow, hasApplication);
    NotificationsWriteNothing(paths != [] && hasWindow, hasApplication);
    ExecsAppend(b.effects, n);
    OnlyNotificationsAfter(b.effects, n);
    ReadClientsUnfold(ctx, clients, hasWindow, hasApplication);
  }

  lemma ReadClientsUnfold(ctx: Context, clients: seq<LocalClient>, hasWindow: bool, hasApplication: bool)
    ensures var g := ctx.globals;
      var (cs, b) := ReadAll(ctx, clients, EmptyBatch);
      var paths := if b.toSend != [] then g.sendPaths + b.toSend else g.sendPaths;
      ReadClients(ctx, clients, hasWindow, hasApplication)
        == ServerStep(cs, Globals(paths, if b.startUrl != [] then b.startUrl else g.startUrl),
                      b.effects + Notifications(paths != [] && hasWindow, hasApplication))
  {
  }

  /** Appending only notifications keeps the earlier effects as a prefix. */
  lemma OnlyNotificationsAfter(effects: seq<Effect>, n: seq<Effect>)
    requires forall e :: e in n ==> e.SendPathsToWindow? || e.CheckStartUrl?
    ensures var all := effects + n;
      && |effects| <= |all| && all[..|effects|] == effects
      && forall k :: |effects| <= k < |all| ==> all[k].SendPathsToWindow? || all[k].CheckStartUrl?
  {
    var all := effects + n;
    forall k | |effects| <= k < |all|
      ensures all[k].SendPathsToWindow? || all[k].CheckStartUrl?
    {
      assert all[k] == n[k - |effects|];
    }
  }

  /** The pass over the clients works piecewise: the batch after `a + c` is
      the batch after `c` started from the batch after `a`. */
  lemma {:induction false} ReadAllAppend(ctx: Context, a: seq<LocalClient>, c: seq<LocalClient>, b: Batch)
    requires Admissible(ctx, b)
    ensures ReadAll(ctx, a + c, b).1 == ReadAll(ctx, c, ReadAll(ctx, a, b).1).1
    decreases |a|
  {
    if a == [] {
      assert a + c == c;
    } else {
      assert (a + c)[0] == a[0] && (a + c)[1..] == a[1..] + c;
      ReadAllAppend(ctx, a[1..], c, ReadClient(ctx, a[0], b).1);
    }
  }

  lemma EscapeSemicolonPath()
    ensures Escape([97, 59, 98]) == [97, 59, 98]
  {
    var path: Units := [97, 59, 98];
    assert Escape(path[2..]) == [98];
    assert Escape(path[1..]) == [59, 98];
  }

  /** A ';' inside a frame joins like a frame boundary. */
  lemma JoinSplitFrame(x: Units, y: Units, rest: seq<Units>)
    ensures Join([x + [Semicolon] + y] + rest) == Join([x, y] + rest)
  {
    assert ([x + [Semicolon] + y] + rest)[1..] == rest;
    assert ([x, y] + rest)[1..] == [y] + rest;
    assert ([y] + rest)[1..] == rest;
  }

  /** The command string of a secondary sending the path "a;b". */
  lemma SemicolonPathCommands()
    ensures Commands([[97, 59, 98]], []) == Join([SendTag + [97], [98], CmdTag + Show]) + []
  {
    var path: Units := [97, 59, 98];
    EscapeSemicolonPath();
    CommandsAreFrames([path], []);
    assert SendFrames([path]) == [SendTag + path] + SendFrames([]);
    assert ClientFrames([path], []) == [SendTag + path] + [CmdTag + Show];
    assert SendTag + path == SendTag + [97] + [Semicolon] + [98];
    JoinSplitFrame(SendTag + [97], [98], [CmdTag + Show]);
    assert [SendTag + [97], [98]] + [CmdTag + Show] == [SendTag + [97], [98], CmdTag + Show];
  }

  /** Handling the frames of "a;b": "a" is queued, "b" is unknown. */
  lemma SemicolonPathFrames(ctx: Context, client: nat)
    requires ctx.globals.sendPaths == []
    ensures HandleFrames(ctx, client, EmptyBatch, [SendTag + [97], [98], CmdTag + Show]).toSend == [[97]]
  {
    var frames := [SendTag + [97], [98], CmdTag + Show];
    ClassifyRender(Send([97]));
    assert Unescape([97]) == [97];
    assert Classify([98]) == Unknown([98]);
    ClassifyRender(Exec(Show));
    var b1 := HandleCommand(ctx, client, EmptyBatch, Classify(frames[0]));
    assert b1.toSend == [[97]];
    var b2 := HandleCommand(ctx, client, b1, Classify(frames[1]));
    var b3 := HandleCommand(ctx, client, b2, Classify(frames[2]));
    assert HandleFrames(ctx, client, EmptyBatch, frames) == HandleFrames(ctx, client, b1, frames[1..]);
    assert HandleFrames(ctx, client, b1, frames[1..]) == HandleFrames(ctx, client, b2, frames[2..]);
    assert HandleFrames(ctx, client, b2, frames[2..]) == HandleFrames(ctx, client, b3, []);
  }

  /** ';' is not escaped, so a path holding one reaches the primary cut at
      the ';': sending "a;b" queues "a", and "b" is dropped as an unknown
      command. */
  lemma SemicolonInPathIsCut(ctx: Context, client: nat)
    requires ctx.globals.sendPaths == []
    ensures var commands := Commands([[97, 59, 98]], []);
      && SplitFrames(commands) == ([SendTag + [97], [98], CmdTag + Show], [])
      && HandleFrames(ctx, client, EmptyBatch, SplitFrames(commands).0).toSend == [[97]]
  {
    SemicolonPathCommands();
    SplitJoin([SendTag + [97], [98], CmdTag + Show], []);
    SemicolonPathFrames(ctx, client);
  }
}
